=== FILE: README.md ===
# lab4c command/report engine in Dafny

lab4c is a temperature-reporting agent that comes as two nearly identical C programs.
`lab4c_tcp.c` reads commands from stdin and writes to stdout. `lab4c_tls.c` reads and
writes over a TLS session. Both programs run one loop. Each pass:

- reports `HH:MM:SS <temperature>` once a period has elapsed, when reporting is on;
- polls for input;
- cuts a read into newline-terminated commands;
- hands each command to `parse_option`.

`parse_option` logs the line first. It then acts on one of:

- the exact commands `SCALE=F`, `SCALE=C`, `STOP`, `START` and `OFF`;
- a `PERIOD=` anywhere in the line;
- anything else, which it ignores.

`OFF`, and the button's interrupt handler, shut the agent down. Shutting down writes
`HH:MM:SS SHUTDOWN`, closes the log and the transport, and exits. The TLS program
first checks its command line and sends `ID=<id>`.

The model has six modules:

- `Text` holds the C library pieces the agent relies on:
  - the C string of a NUL-terminated buffer;
  - `strstr`;
  - `atoi`, with optional white space and sign, and 0 when there are no digits;
  - `%d` and `%02d`.
- `Lexer` holds the command lexer, `Lex`. It also has `LexAsWritten`, the source's
  pointer loop, which is undefined (`None`) when no newline follows.
- `Commands` holds `Classify`, which recognises one command line as `parse_option`
  tests it.
- `Protocol` is the engine as functions over a `SessionState`. The state holds:
  - the settings (`opt_scale`, `opt_report`, `opt_period`);
  - `last_report` and the local clock;
  - whether the session is over;
  - the text kept from an incomplete read;
  - the ordered trace of everything written. Each effect is a line to the log file,
    a line sent on the transport, closing the log, or closing the transport.

  The session invariant says four things about the trace:
  - log lines appear only when logging;
  - every line ends in a newline;
  - when logging, every sent line comes straight after the same line in the log;
  - the closing effects come last, and only once the session is over.
- `Agent` holds the class `Session`, whose fields are the program's globals and whose
  buffer is `char buffer[INPUT_SIZE + 1]`. Each method is proved to make exactly the
  change that the `Protocol` function of the same step describes:
  - `log_and_print`;
  - `shut_down` and `button_shutdown`;
  - `parse_option`;
  - the scheduler;
  - the read and the lexer loop.

  Every property proved in `Protocol` therefore holds of the running agent.
- `Startup` covers the TLS program's `getopt_long` loop and its checks:
  - the scale must be `F` or `C`;
  - the host must not be empty;
  - the ID must be nine characters;
  - the port must lie in 0..65535;
  - `--log`, `--host` and `--id` are required.

  It also builds the `ID=` line.

The lexer departs from the source in one respect. A read whose last command has no
newline yet keeps that text in `pending`, and prepends it to the next read. The source
lexes each read on its own, and runs past the text when no newline follows (see
Findings). With this change, the way the input is cut into reads does not matter,
for reads that hold no NUL (`Protocol.ConsumeChunking`). A NUL inside a read ends
that read's text at the NUL, as the lexer's `*head != '\0'` test sees it, so there the cut does matter.

## Model

| member | source | states |
|---|---|---|
| Text.CString | files/lab4c_tcp.c:232 | The C string of a buffer is the part before its first NUL. It holds no NUL, and a NUL follows it when it is shorter than the buffer. |
| Text.CStringOfTerminated | files/lab4c_tls.c:325-332 | Once a terminator is written after the data read, the buffer's C string is exactly that data, whatever the buffer holds beyond it. |
| Text.FindSpec | files/lab4c_tcp.c:103 | `strstr` reports the first occurrence of the pattern, and reports none only when the pattern occurs nowhere. |
| Text.Find | files/lab4c_tcp.c:103 | A position `strstr` returns is an occurrence of the pattern. |
| Text.AtoiNoNumber | files/lab4c_tcp.c:109 | `atoi` is 0 when no digit follows the white space and the optional sign, even if digits come later (`x5`, `- 5`, `+-5`). |
| Text.AtoiOfDecimal | files/lab4c_tcp.c:109 | `atoi` reads back any integer written by `%d`, and stops at the first character that is not a digit. |
| Text.Atoi | files/lab4c_tcp.c:109 | `atoi` gives a negative number only when the text holds a `-`. A text made only of digits reads as its decimal value. |
| Text.AtoiSpec | files/lab4c_tcp.c:109 | `atoi` of white space, then an optional `+` or `-`, then a run of digits (leading zeros allowed), then text that does not start with a digit, is the value of the digits, negated after `-`. |
| Text.AtoiNoDigits | files/lab4c_tls.c:137 | `atoi` of text with no digit at all is 0. |
| Text.AtoiSkipsSpace | files/lab4c_tls.c:137 | `atoi` ignores leading white space. |
| Text.Pad2RoundTrip | files/lab4c_tcp.c:213 | `%02d` of 0..99 is exactly two digits, and `atoi` reads them back as the number. |
| Lexer.SkipBlanks | files/lab4c_tcp.c:238-239 | The blank-skipping loop stops at a character that is neither a space nor a tab, or at the end; it never lengthens the text. |
| Lexer.SkipBlanksSuffix | files/lab4c_tcp.c:238-239 | Skipping blanks drops only spaces and tabs, and only from the front. What remains is the rest of the text, unchanged. |
| Lexer.NewlineIndex | files/lab4c_tcp.c:241 | `strstr(head, "\n")`: a position it returns holds a newline, and it returns none only when the text has no newline. |
| Lexer.NewlineIndexSpec | files/lab4c_tcp.c:241 | `strstr(head, "\n")` gives the first newline, with none before it, and gives none only when there is no newline. |
| Lexer.Lex | files/lab4c_tcp.c:237-249 | The text kept after the last command never holds a newline: every newline ends a command that is handed over. |
| Lexer.LexTrimmed | files/lab4c_tcp.c:237-249 | Every command, and the kept rest, holds no newline and starts with no space or tab. |
| Lexer.LexCount | files/lab4c_tcp.c:237-249 | The lexer yields exactly one command per newline in the text. |
| Lexer.LexUnlex | files/lab4c_tls.c:337-350 | Commands sent each followed by a newline are lexed back exactly and in order, with nothing kept. |
| Lexer.LexBlanksPrefix | files/lab4c_tls.c:338-339 | Any run of spaces and tabs before a text changes nothing in its lexing. |
| Lexer.LexAppend | files/lab4c_tcp.c:234-250 | When a text arrives in two reads and the first read's unterminated rest goes in front of the second, the commands found are the same as for the whole text. |
| Lexer.LexAsWritten | files/lab4c_tcp.c:237-250 | The source's loop has a defined result only when the read is empty or ends in a newline. |
| Lexer.LexAsWrittenAgrees | files/lab4c_tcp.c:237-250 | The source's loop is defined exactly on texts that are empty or end in a newline. There it yields the lexer's commands and leaves nothing. |
| Lexer.LexUnterminated | files/lab4c_tcp.c:241-243 | For a read with no newline, the source's loop is undefined. The lexer yields no command and keeps the text, blanks skipped. |
| Lexer.UnterminatedReadUndefined | files/lab4c_tls.c:341-343 | For the read `PERIOD=3`, the source's loop is undefined. The lexer keeps `PERIOD=3`. |
| Lexer.TrailingBlanksUndefined | files/lab4c_tcp.c:237-243 | For `STOP\n ` (blanks after the last newline), the source's loop is undefined. The lexer yields `STOP` and keeps nothing. |
| Commands.ClassifyPeriodAnywhere | files/lab4c_tcp.c:103-110 | A line with `PERIOD=` at any position sets the period to `atoi` of what follows its first occurrence. |
| Commands.Classify | files/lab4c_tcp.c:92-101 | Only the line `OFF` itself is the OFF command. A line is one of the exact commands exactly when it equals `SCALE=F`, `SCALE=C`, `STOP`, `START` or `OFF`, never as a prefix or inside a longer line. |
| Commands.ClassifyNoPeriod | files/lab4c_tcp.c:112-119 | A line that is neither an exact command nor holds `PERIOD=` sets nothing. It is a LOG note exactly when it contains `LOG `. |
| Commands.ClassifyPeriodBeforeLog | files/lab4c_tls.c:132-145 | The `PERIOD=` test precedes the `LOG ` test, so `LOG PERIOD=7` sets the period to 7. |
| Commands.ClassifyPeriodNotNumeric | files/lab4c_tls.c:132-138 | A non-numeric value is not rejected: `PERIOD=abc` sets the period to 0. |
| Commands.ClassifyPeriodNegative | files/lab4c_tcp.c:103-110 | A negative value is not rejected: `PERIOD=-5` sets the period to -5. |
| Protocol.Timestamp | files/lab4c_tcp.c:213 | `%02d:%02d:%02d` of a valid local time is eight characters long. |
| Protocol.ReportLine | files/lab4c_tcp.c:213 | A report line is the eight-character time stamp, a space, then the printed reading, unchanged. |
| Protocol.ShutdownLine | files/lab4c_tcp.c:56 | The shutdown line is the eight-character time stamp followed by ` SHUTDOWN`, 17 characters in all. |
| Protocol.TimestampFormat | files/lab4c_tcp.c:213 | `%02d:%02d:%02d` of a valid time is exactly eight characters, with `:` at positions 2 and 5, and each field reads back as its number. |
| Protocol.Emit | files/lab4c_tcp.c:45-51 | `log_and_print` writes one line, or two when logging. |
| Protocol.Halt | files/lab4c_tcp.c:53-66 | Shutting down always ends the session. The lines it writes and their order are stated by `Protocol.HaltTrace`. |
| Protocol.HaltTrace | files/lab4c_tcp.c:53-66 | Shutting down a running session, by OFF or by the button, appends exactly the SHUTDOWN line with the current time (to the log when logging, then to the transport), then the closing of the log when logging, then the closing of the transport. Nothing else changes except that the session ends. |
| Protocol.HaltDone | files/lab4c_tls.c:80-96 | Shutting down a session that has already ended changes nothing. |
| Protocol.InitialInvariant | files/lab4c_tls.c:297-298 | The session invariant holds of the state the main loop starts in. |
| Protocol.EmitInvariant | files/lab4c_tls.c:60-70 | `log_and_print` keeps the invariant: the line goes to the log first, when logging, and is then sent, each time with a newline. |
| Protocol.HaltInvariant | files/lab4c_tls.c:80-96 | Shutting down keeps the invariant: the trace stays in log-before-send order, and the closing effects come last. |
| Protocol.InterpretInvariant | files/lab4c_tls.c:116-148 | `parse_option` keeps the invariant, whatever the line. |
| Protocol.LogCommand | files/lab4c_tcp.c:88-91 | Logging a command adds one trace entry when logging and none otherwise, and changes nothing but the trace. |
| Protocol.Apply | files/lab4c_tcp.c:92-120 | A recognised command never changes the log mode or the kept input, and it ends the session exactly when it is OFF (or the session had already ended). |
| Protocol.RunLines | files/lab4c_tcp.c:237-250 | Interpreting the commands of a read in turn keeps the log mode and the kept input, and the session has ended afterwards exactly when it had already ended or one of the commands is `OFF`. |
| Protocol.Interpret | files/lab4c_tcp.c:87-121 | The session ends on a command exactly when the line is `OFF` or the session was already over. Whether logging is on, and the kept input, never change. |
| Protocol.ConsumeInvariant | files/lab4c_tls.c:324-350 | A read and its lexer loop keep the invariant. |
| Protocol.Dispatch | files/lab4c_tcp.c:234-250 | When the lexer loop ends without a shutdown, the text it keeps holds no newline. |
| Protocol.Consume | files/lab4c_tcp.c:224-250 | A read after the session has ended changes nothing. Otherwise, unless the read shuts the agent down, the text kept afterwards holds no newline. |
| Protocol.ScheduleInvariant | files/lab4c_tls.c:304-316 | A pass of the scheduler keeps the invariant. |
| Protocol.ReportDue | files/lab4c_tcp.c:204 | The report condition: reporting is on and at least `period` seconds have passed since `last_report`. `Protocol.ScheduleDecision` states that a report is written exactly when it holds. |
| Protocol.Schedule | files/lab4c_tcp.c:200-216 | A scheduler pass changes only the clock, the trace and `last_report`. The settings, the log mode, the session's end and the kept input stay as they were. `last_report` either stays or becomes the time after the report. |
| Protocol.ClosingIsLast | files/lab4c_tls.c:84-95 | A closing effect appears only in the final closing part of an ended session, so nothing is logged or sent after the log or transport is closed. |
| Protocol.InterpretLogsFirst | files/lab4c_tcp.c:88-91 | Every command line, recognised or not, is logged before anything else happens. The trace so far, then the logged line, is a prefix of the new trace. |
| Protocol.InterpretExact | files/lab4c_tcp.c:92-99 | `SCALE=F`, `SCALE=C`, `STOP` and `START` set their own flag and change nothing else besides logging the line. |
| Protocol.InterpretPeriod | files/lab4c_tls.c:132-138 | A line with `PERIOD=` anywhere sets only the period, to `atoi` of what follows its first occurrence. |
| Protocol.InterpretNoEffect | files/lab4c_tls.c:140-146 | Any other line, a `LOG` note included, only goes to the log. |
| Protocol.InterpretOff | files/lab4c_tcp.c:100-101 | `OFF` does the following, in order: logs the line, logs and sends the SHUTDOWN line with the current time, closes the log, closes the transport, and ends the session. The settings are left as they were. |
| Protocol.RunLinesTerminated | files/lab4c_tcp.c:65 | After the session has ended, no command is interpreted. |
| Protocol.RunLinesStopsAtOff | files/lab4c_tcp.c:237-249 | Commands after `OFF` in the same read are never interpreted. |
| Protocol.ScheduleDone | files/lab4c_tcp.c:200-216 | After the session has ended, a scheduler pass changes nothing. |
| Protocol.ScheduleDecision | files/lab4c_tcp.c:204-216 | A report is written exactly when reporting is on and `now - last_report >= period`. `last_report` then becomes the time after the report, and is unchanged otherwise. The settings are untouched. |
| Protocol.StopSilences | files/lab4c_tls.c:125-126 | After `STOP`, the scheduler neither reports nor moves `last_report`. |
| Protocol.ConsumeChunking | files/lab4c_tls.c:325-350 | Two reads have the same effect as one read of both chunks together, when the first chunk has no NUL. |
| Protocol.ConsumeLines | files/lab4c_tcp.c:225-250 | A read that completes a run of commands interprets exactly those commands, in order, and keeps nothing. |
| Protocol.ConsumeUnterminated | files/lab4c_tcp.c:241-243 | A read without a newline interprets nothing and keeps its text, blanks skipped. |
| Protocol.SplitCommand | files/lab4c_tls.c:325-349 | `PERIOD=3` without its newline changes nothing and is kept. The following read of `\n` sets the period to 3. |
| Agent.Session.constructor | files/lab4c_tls.c:297-298 | The session starts with the parsed options, reporting on, `last_report` at the start time, nothing written, and the invariant holding. |
| Agent.Session.LogAndPrint | files/lab4c_tcp.c:45-51 | The state becomes the old one with the line logged, when logging, and then written out, each with a newline. The invariant is kept. |
| Agent.Session.ShutDown | files/lab4c_tls.c:80-96 | The state becomes the shut-down state of the old one, and the invariant is kept. |
| Agent.Session.Close | files/lab4c_tcp.c:53-66 | The SHUTDOWN line, the closing of the log and of the transport, and the exit, are made in that order. |
| Agent.Session.ParseOption | files/lab4c_tls.c:116-148 | The state becomes `parse_option`'s function of the old state and the line, and the invariant is kept. |
| Agent.Session.LogReceived | files/lab4c_tcp.c:88-91 | The state becomes the old one with the line logged, when logging. |
| Agent.Session.Perform | files/lab4c_tcp.c:92-120 | The state becomes the old one with the line's command applied: one of the exact commands, or else the `PERIOD=` test. |
| Agent.Session.SetPeriodIfGiven | files/lab4c_tcp.c:102-119 | For a line that is none of the exact commands, the state becomes the old one with the line's command applied: a period set by `PERIOD=`, or no change. |
| Agent.Session.Tick | files/lab4c_tcp.c:200-216 | The state becomes the scheduler's function of the old state and the time, and the invariant is kept. |
| Agent.Session.Receive | files/lab4c_tcp.c:225-232 | The data is copied into the buffer and a terminator is written right after it, inside the buffer. The buffer's C string is then the data's C string: the data up to its first NUL. |
| Agent.Session.ProcessInput | files/lab4c_tls.c:324-350 | One read: the state becomes the read's function of the old state and the data, and the invariant is kept. |
| Agent.Session.HandOver | files/lab4c_tls.c:343-348 | Handing the next command to `parse_option` interprets one more command after those already handed over. |
| Agent.Session.Take | files/lab4c_tcp.c:243-249 | The text between the skipped blanks and the newline is the lexer's next command. It is handed to `parse_option`, which interprets one more command after those already handed over. |
| Agent.Session.Keep | files/lab4c_tcp.c:241-243 | Once every command has been handed over, the text with no newline left is the lexer's rest, and it is kept for the next read. |
| Agent.Session.LexAndDispatch | files/lab4c_tcp.c:234-250 | The loop interprets the lexer's commands in order until the session ends, and keeps the unterminated rest. |
| Agent.NextCommand | files/lab4c_tls.c:338-343 | After skipping blanks, the text up to the next newline is the lexer's next command. Without a newline, the text is the lexer's rest. |
| Agent.SkipBlankChars | files/lab4c_tcp.c:238-239 | The blank-skipping loop stops where the lexer's blank skip does. |
| Agent.FindNewline | files/lab4c_tls.c:341 | The position found is the first newline at or after the start, or the end of the text. |
| Startup.ParseArguments | files/lab4c_tls.c:161-228 | The `getopt_long` loop and the checks after it decide exactly what `Configure` decides. |
| Startup.OptionError | files/lab4c_tls.c:168-209 | The failure a rejected option causes is the one for its kind: a bad scale, an empty host, an ID that is not nine characters, or a usage error. |
| Startup.Record | files/lab4c_tls.c:168-203 | Recording an option sets the log file, host or ID exactly when the option is that one, and a `--scale` that passed its check gives Celsius exactly for `C`. |
| Startup.ScanOptions | files/lab4c_tls.c:161-210 | When the option loop fails, the failure is that of one of the options given. |
| Startup.PortOf | files/lab4c_tls.c:212-221 | The port is accepted exactly when a positional argument is given and its `atoi` value lies in 0..65535, and it is then that value. With no positional argument the failure is a missing port. |
| Startup.IdLine | files/lab4c_tls.c:285 | The ID line is four characters longer than the ID and ends with a newline. |
| Startup.Configure | files/lab4c_tls.c:161-228 | A started program's port is `atoi` of the first positional argument, and it lies in 0..65535. |
| Startup.ScanAccepts | files/lab4c_tls.c:168-209 | The option loop completes exactly when every option is acceptable. Then the log file, host and ID are set exactly when their options were given. |
| Startup.ConfigureAccepts | files/lab4c_tls.c:172-228 | The program starts exactly when all of the following hold: every option is acceptable; a port in 0..65535 is given; and `--log`, `--host` and `--id` were all given. |
| Startup.AcceptedConfig | files/lab4c_tls.c:190-221 | A started program has a non-empty host, a nine-character ID, and the port `atoi` of the first positional argument, in range. Its `ID=` line is 13 characters and fits `temp[16]` with its terminator. |
| Startup.IdLineFormat | files/lab4c_tls.c:284-286 | The ID line is `ID=`, then the ID, then a newline. |
| Startup.ConfigureFirstFailure | files/lab4c_tls.c:172-208 | The first unacceptable option decides the failure, whatever follows it. |
| Startup.ConfigurePortFirst | files/lab4c_tls.c:212-228 | With acceptable options, a missing or out-of-range port is reported before any missing required option. |
| Startup.ConfigureLastScale | files/lab4c_tls.c:172-181 | The last `--scale` decides the scale. |
| Startup.ConfigureLastPeriod | files/lab4c_tls.c:169-171 | The last `--period` decides the period. |
| Startup.ConfigureDefaults | files/lab4c_tls.c:30-31 | Without `--scale` the scale is Fahrenheit, and without `--period` the period is 1. |

## Left out

- The temperature: `parse_reading` uses floating-point `log` and division, and `%.1f` formats floating point. The printed reading is an opaque string given to `Tick`.
- Hardware: the mraa sensor and button are not modelled. The button's interrupt handler is modelled as another caller of `ShutDown`, not as a concurrent thread.
- Transport: sockets, DNS, `connect`, and the OpenSSL setup, handshake and teardown are not modelled. Each line written is a `Send` effect, and `SSL_shutdown`/`SSL_free`/`exit` together are the `CloseTransport` effect. In the tcp program, stdout is closed by `exit`, and that is modelled as the same effect.
- The `ID=` line is sent before the main loop begins and is not logged. The session's trace starts after it.
- The echo of every line to stderr in the TLS `log_and_print` is not modelled (stderr is a diagnostic stream).
- `poll`, `read`/`SSL_read` failures, `time`, `gettimeofday` and `localtime` are not modelled. Times are integer and `LocalTime` parameters, and a read is its data (at most 1023 characters).
- A read of zero bytes and a read holding a NUL are both taken by their C string, as the source does.
- `getopt_long` itself is not modelled: its results are given as a sequence of `Opt` values and the positional arguments.
- `fopen`, `fflush` and `fclose` failures, and exit codes, are not modelled.
- The cleanup after the endless loop is not modelled, because it is unreachable.
- The tcp program's command line (`--debug` and no host or ID) is not modelled.
- `found_period += 4` on a null pointer in the `LOG ` branch is not modelled. It has no effect on the state.
- Text.Atoi: does not model overflow, which is undefined in C, because integers are unbounded.
- Agent.Session.ShutDown: the process exit is the session's `terminated` flag; later calls return without effect (`Protocol.HaltDone`) rather than never happening.

## Findings

| source | as written | input that shows it | evidently intended | confidence | as-written member | corrected member |
|---|---|---|---|---|---|---|
| files/lab4c_tcp.c:237-243 (and files/lab4c_tls.c:337-343) | After skipping blanks, `tail = strstr(head, "\n")` is used without a null check. When no newline follows, `tail - head` and `head = tail + 1` are undefined. | A read of `PERIOD=3` with no newline, or `STOP\n ` with a blank after the last newline | Text with no newline is kept and completed by the next read, and trailing blanks are skipped | not executed | Lexer.UnterminatedReadUndefined | Lexer.LexAppend |

=== FILE: agent.dfy ===
/** The agent's globals and the C functions that update them in place. Each method
    is proved to make exactly the change that the Protocol function of the same step
    describes, so every property proved there holds of the running agent. */
module Agent {
  import opened Text
  import opened Lexer
  import opened Commands
  import opened Protocol

  class Session {
    var scale: Scale              // opt_scale
    var reporting: bool           // opt_report
    var period: int               // opt_period
    var lastReport: int           // last_report
    var clock: LocalTime          // localtime(&time_now.tv_sec)
    const logging: bool           // opt_log
    var trace: seq<Effect>        // what was written to the log and the transport
    var terminated: bool          // the process has exited
    var pending: string           // an incomplete command kept for the next read
    const buffer: array<char>     // char buffer[INPUT_SIZE + 1]

    function State(): SessionState
      reads this
    {
      SessionState(scale, reporting, period, lastReport, clock, logging, trace, terminated, pending)
    }

    predicate Valid()
      reads this
    {
      buffer.Length == InputSize + 1 && Invariant(State())
    }

    /** The state main() sets up before its loop: the options as parsed, reporting
        on, and last_report at the start time. */
    constructor (scale0: Scale, period0: int, logging0: bool, start: int, clock0: LocalTime)
      ensures Valid()
      ensures State() == Initial(scale0, period0, logging0, start, clock0)
      ensures fresh(buffer)
    {
      scale := scale0;
      reporting := true;
      period := period0;
      lastReport := start;
      clock := clock0;
      logging := logging0;
      trace := [];
      terminated := false;
      pending := [];
      buffer := new char[InputSize + 1];
      new;
      InitialInvariant(scale0, period0, logging0, start, clock0);
    }

    /** log_and_print */
    method LogAndPrint(line: string)
      requires Valid() && !terminated
      modifies this
      ensures State() == Emit(old(State()), line)
      ensures Valid()
    {
      EmitInvariant(State(), line);
      if logging {
        trace := trace + [LogLine(line + "\n")];
      }
      trace := trace + [Send(line + "\n")];
    }

    /** shut_down, and the button's interrupt handler button_shutdown. */
    method ShutDown()
      requires Valid()
      modifies this
      ensures State() == Halt(old(State()))
      ensures Valid()
    {
      HaltInvariant(State());
      Close();
    }

    /** The steps of shut_down: the SHUTDOWN line, then the log and the transport
        are closed and the process exits. */
    method Close()
      requires Valid()
      modifies this
      ensures State() == Halt(old(State()))
    {
      if terminated {
        return;
      }
      LogAndPrint(ShutdownLine(clock));
      if logging {
        trace := trace + [CloseLog];
      }
      trace := trace + [CloseTransport];
      terminated := true;
    }

    /** parse_option: the line is logged, then acted on. */
    method ParseOption(line: string)
      requires Valid()
      modifies this
      ensures State() == Interpret(old(State()), line)
      ensures Valid()
    {
      if terminated {
        return;
      }
      InterpretInvariant(State(), line);
      LogCommandInvariant(State(), line);
      LogReceived(line);
      Perform(line);
    }

    /** The first statement of parse_option: the command line goes to the log. */
    method LogReceived(line: string)
      modifies this
      ensures State() == LogCommand(old(State()), line)
    {
      if logging {
        trace := trace + [LogLine(line + "\n")];
      }
    }

    /** parse_option's chain of tests after the line is logged: the exact commands
        by strcmp, then PERIOD= by strstr; anything else changes nothing. */
    method Perform(line: string)
      requires Valid()
      modifies this
      ensures State() == Apply(old(State()), Classify(line))
    {
      ghost var cmd := Classify(line);
      if line == "SCALE=F" {
        assert cmd == SetScale(Fahrenheit);
        scale := Fahrenheit;
      } else if line == "SCALE=C" {
        assert cmd == SetScale(Celsius);
        scale := Celsius;
      } else if line == "STOP" {
        assert cmd == Stop;
        reporting := false;
      } else if line == "START" {
        assert cmd == Start;
        reporting := true;
      } else if line == "OFF" {
        assert cmd == Off;
        ShutDown();
      } else {
        SetPeriodIfGiven(line);
      }
    }

    /** The rest of parse_option's tests, for a line that is none of the exact
        commands: PERIOD= anywhere sets the period; a LOG note, or any other line,
        changes nothing. */
    method SetPeriodIfGiven(line: string)
      requires !IsExact(line)
      modifies this
      ensures State() == Apply(old(State()), Classify(line))
    {
      var found := Find(line, PeriodKey);
      if found.Some? {
        period := Atoi(line[found.value + |PeriodKey|..]);
      }
    }

    /** The scheduler at the top of the main loop: `now` is time(&current), `local`
        the local time of gettimeofday, `reading` the printed temperature, and
        `reportedAt` what time(&last_report) reads after the report. */
    method Tick(now: int, local: LocalTime, reading: string, reportedAt: int)
      requires Valid()
      modifies this
      ensures State() == Schedule(old(State()), now, local, reading, reportedAt)
      ensures Valid()
    {
      if terminated {
        return;
      }
      ScheduleInvariant(State(), now, local, reading, reportedAt);
      clock := local;
      if reporting && now - lastReport >= period {
        LogAndPrint(ReportLine(local, reading));
        lastReport := reportedAt;
      }
    }

    /** read(fd, buffer, INPUT_SIZE) followed by buffer[read_rc] = '\0': the
        terminator always lands inside the buffer. */
    method Receive(data: string)
      requires Valid() && |data| <= InputSize
      modifies buffer
      ensures buffer[..|data|] == data && buffer[|data|] == '\0'
      ensures CString(buffer[..]) == CString(data)
    {
      var i := 0;
      while i < |data|
        invariant 0 <= i <= |data|
        invariant buffer[..i] == data[..i]
      {
        buffer[i] := data[i];
        i := i + 1;
      }
      buffer[|data|] := '\0';
      assert buffer[..] == data + ['\0'] + buffer[|data| + 1..];
      CStringOfTerminated(data, buffer[|data| + 1..]);
    }

    /** One read: the data is stored and terminated, and the lexer loop runs over
        what was kept from the previous read followed by the new C string. */
    method ProcessInput(data: string)
      requires Valid() && |data| <= InputSize
      modifies this, buffer
      ensures State() == Consume(old(State()), data)
      ensures Valid()
    {
      if terminated {
        return;
      }
      ConsumeInvariant(State(), data);
      Receive(data);
      var text := pending + CString(buffer[..]);
      ClearPendingInvariant(State());
      pending := [];
      LexAndDispatch(text);
    }

    /** The lexer loop's call of parse_option on its next command, after the commands
        `done` have been interpreted from the state `st0`. */
    method HandOver(command: string, ghost st0: SessionState, ghost done: seq<string>)
      requires buffer.Length == InputSize + 1 && Invariant(st0) && st0.pending == []
      requires State() == RunLines(st0, done)
      modifies this
      ensures State() == RunLines(st0, done + [command]) && pending == []
    {
      RunLinesInvariant(st0, done);
      RunLinesSnoc(st0, done, command);
      ParseOption(command);
      RunLinesPending(st0, done + [command]);
    }

    /** The command between `first` and the newline at `tail` is the lexer's next
        one: it is handed to parse_option. */
    method Take(text: string, first: nat, tail: nat, ghost st0: SessionState, ghost lx: Lexed, ghost done: seq<string>)
      returns (command: string)
      requires buffer.Length == InputSize + 1 && Invariant(st0) && st0.pending == []
      requires first <= tail < |text| && State() == RunLines(st0, done)
      requires done <= lx.cmds && |done| < |lx.cmds| && lx.cmds[|done|] == text[first..tail]
      modifies this
      ensures command == text[first..tail] && done + [command] <= lx.cmds
      ensures pending == [] && State() == RunLines(st0, done + [command])
    {
      command := text[first..tail];
      PrefixGrows(done, lx.cmds);
      HandOver(command, st0, done);
    }

    /** Once every command is handed over, the text left without a newline is the
        lexer's rest, and it is kept for the next read. */
    method Keep(rest: string, ghost lx: Lexed, ghost done: seq<string>)
      requires done <= lx.cmds && |done| == |lx.cmds| && lx.rest == rest
      modifies this
      ensures done == lx.cmds && State() == old(State()).(pending := lx.rest)
    {
      pending := rest;
    }

    /** The lexer loop: blanks are skipped, each newline-terminated command is handed
        to parse_option, the loop stops once the agent has shut down, and text with
        no newline left is kept for the next read. */
    method LexAndDispatch(text: string)
      requires Valid() && !terminated && pending == []
      modifies this
      ensures State() == Dispatch(old(State()), text)
    {
      ghost var lx := Lex(text);
      ghost var st0 := State();
      assert Invariant(st0) && st0.pending == [];
      ghost var done: seq<string> := [];
      var head := 0;
      var kept := false;
      assert text[head..] == text;
      while head < |text| && !terminated
        invariant 0 <= head <= |text|
        invariant pending == [] && State() == RunLines(st0, done)
        invariant done <= lx.cmds
        invariant Lex(text[head..]) == Lexed(lx.cmds[|done|..], lx.rest)
        decreases |text| - head
      {
        var first, tail := NextCommand(text, head, lx, |done|);
        if tail == |text| {
          Keep(text[first..], lx, done);
          kept := true;
          break;
        }
        var command := Take(text, first, tail, st0, lx, done);
        assert |done + [command]| == |done| + 1;
        done := done + [command];
        head := tail + 1;
      }
      if !kept && !terminated {
        LexLoopEnd(text, lx, |done|);
      }
      DispatchAfter(st0, text, done);
    }
  }

  /** A prefix of a list that is not all of it grows by the list's next element. */
  lemma PrefixGrows<T>(done: seq<T>, all: seq<T>)
    requires done <= all && |done| < |all|
    ensures done + [all[|done|]] <= all
  {
    assert all[..|done| + 1] == done + [all[|done|]];
  }

  /** One step of the lexer loop from `head`, in a text whose lexing is `lx` and of
      which k commands are handed over: blanks are skipped up to `first`, and `tail`
      is the next newline, or the end of the text when there is none. A newline ends
      the next command; without one, every command has been handed over and the text
      from `first` on is the rest. */
  method NextCommand(text: string, head: nat, ghost lx: Lexed, ghost k: nat) returns (first: nat, tail: nat)
    requires head <= |text|
    requires k <= |lx.cmds| && Lex(text[head..]) == Lexed(lx.cmds[k..], lx.rest)
    ensures head <= first <= tail <= |text|
    ensures tail == |text| ==> k == |lx.cmds| && lx.rest == text[first..]
    ensures tail < |text| ==> k < |lx.cmds| && lx.cmds[k] == text[first..tail]
    ensures tail < |text| ==> Lex(text[tail + 1..]) == Lexed(lx.cmds[k + 1..], lx.rest)
  {
    first := SkipBlankChars(text, head);
    tail := FindNewline(text, first);
    if tail == |text| {
      assert text[first..tail] == text[first..];
      LexLoopRest(text, head, first, lx, k);
    } else {
      LexLoopStep(text, head, first, tail, lx, k);
    }
  }

  /** The blank-skipping loop: from `from`, past every space and tab. */
  method SkipBlankChars(text: string, from: nat) returns (head: nat)
    requires from <= |text|
    ensures from <= head <= |text|
    ensures SkipBlanks(text[from..]) == text[head..]
  {
    head := from;
    while head < |text| && IsBlank(text[head])
      invariant from <= head <= |text|
      invariant SkipBlanks(text[from..]) == SkipBlanks(text[head..])
    {
      SkipBlankStep(text, head);
      head := head + 1;
    }
    SkipBlanksDone(text, head);
  }

  /** strstr(head, "\n") over the terminated text: the first newline at or after
      `head`, or the end of the text when there is none. */
  method FindNewline(text: string, head: nat) returns (tail: nat)
    requires head <= |text|
    ensures head <= tail <= |text|
    ensures '\n' !in text[head..tail]
    ensures tail < |text| ==> text[tail] == '\n'
  {
    NewlineIndexSpec(text[head..]);
    match NewlineIndex(text[head..]) {
      case Some(k) =>
        tail := head + k;
        assert text[head..tail] == text[head..][..k];
      case None =>
        tail := |text|;
    }
  }
}

=== FILE: commands.dfy ===
/** Recognition of one command line, as parse_option tests it: five exact commands,
    then a PERIOD= search anywhere in the line, then a LOG search. */
module Commands {
  import opened Text

  /** The reporting unit; the source keeps it as 0 (F) or 1 (C). */
  datatype Scale = Fahrenheit | Celsius

  /** What a command line asks the interpreter to do. */
  datatype Command =
    | SetScale(scale: Scale)
    | Stop
    | Start
    | Off
    | SetPeriod(period: int)
    | LogNote       // contains "LOG ": recognised, and nothing is done
    | Unrecognized

  const PeriodKey: string := "PERIOD="
  const LogKey: string := "LOG "

  /** The commands compared with strcmp against the whole line. */
  predicate IsExact(line: string) {
    line == "SCALE=F" || line == "SCALE=C" || line == "STOP" || line == "START" || line == "OFF"
  }

  /** parse_option's tests in order. The exact commands are recognised only as the
      whole line, never as a prefix or inside a longer line; OFF alone ends the session. */
  function Classify(line: string): (r: Command)
    ensures r.Off? <==> line == "OFF"
    ensures r.SetScale? || r.Stop? || r.Start? || r.Off? <==> IsExact(line)
  {
    if line == "SCALE=F" then SetScale(Fahrenheit)
    else if line == "SCALE=C" then SetScale(Celsius)
    else if line == "STOP" then Stop
    else if line == "START" then Start
    else if line == "OFF" then Off
    else match Find(line, PeriodKey)
      case Some(i) => SetPeriod(Atoi(line[i + |PeriodKey|..]))
      case None => if Find(line, LogKey).Some? then LogNote else Unrecognized
  }

  /** PERIOD= is found anywhere in a line, not only at its start: the period is the
      number after its first occurrence. */
  lemma ClassifyPeriodAnywhere(pre: string, v: string)
    requires forall j :: 0 <= j < |pre| ==> !OccursAt(pre + PeriodKey + v, PeriodKey, j)
    ensures Classify(pre + PeriodKey + v) == SetPeriod(Atoi(v))
  {
    var line := pre + PeriodKey + v;
    FindSpec(line, PeriodKey);
    assert line[|pre|..|pre| + |PeriodKey|] == PeriodKey;
    assert OccursAt(line, PeriodKey, |pre|);
    assert line[|pre| + |PeriodKey|..] == v;
    assert line[|pre|] == 'P';
    assert !IsExact(line);
  }

  /** A line that is not an exact command and holds no PERIOD= sets nothing: it is a
      LOG note when it contains "LOG ", and unrecognised otherwise. */
  lemma ClassifyNoPeriod(line: string)
    requires !IsExact(line)
    requires forall j :: 0 <= j ==> !OccursAt(line, PeriodKey, j)
    ensures Classify(line) == LogNote || Classify(line) == Unrecognized
    ensures Classify(line) == LogNote <==> exists j :: 0 <= j && OccursAt(line, LogKey, j)
  {
    FindSpec(line, PeriodKey);
    FindSpec(line, LogKey);
  }

  /** The PERIOD= test comes before the LOG test: "LOG PERIOD=7" sets the period. */
  lemma ClassifyPeriodBeforeLog()
    ensures Classify("LOG PERIOD=7") == SetPeriod(7)
  {
    var line := "LOG PERIOD=7";
    assert line == "LOG " + PeriodKey + "7";
    forall j | 0 <= j < 4 ensures !OccursAt(line, PeriodKey, j) {
      assert line[j] != 'P';
    }
    ClassifyPeriodAnywhere("LOG ", "7");
    assert Atoi("7") == 7 by {
      assert IntToDecimal(7) + [] == "7";
      AtoiOfDecimal(7, []);
    }
  }

  /** A non-numeric value is not rejected: "PERIOD=abc" sets the period to 0. */
  lemma ClassifyPeriodNotNumeric()
    ensures Classify("PERIOD=abc") == SetPeriod(0)
  {
    assert "PERIOD=abc" == [] + PeriodKey + "abc";
    ClassifyPeriodAnywhere([], "abc");
    AtoiNoDigits("abc");
  }

  /** Nor is a negative one: "PERIOD=-5" sets the period to -5. */
  lemma ClassifyPeriodNegative()
    ensures Classify("PERIOD=-5") == SetPeriod(-5)
  {
    assert "PERIOD=-5" == [] + PeriodKey + "-5";
    ClassifyPeriodAnywhere([], "-5");
    assert Atoi("-5") == -5 by {
      assert IntToDecimal(-5) + [] == "-5";
      AtoiOfDecimal(-5, []);
    }
  }
}

=== FILE: lexer.dfy ===
/** The command lexer of the agent's main loop: the text of one read is split into
    newline-terminated commands, each stripped of its leading spaces and tabs. */
module Lexer {
  import opened Text

  /** The characters the lexer skips at the start of a command. */
  predicate IsBlank(c: char) {
    c == ' ' || c == '\t'
  }

  /** The inner blank-skipping loop: s without its leading spaces and tabs. */
  function SkipBlanks(s: string): (r: string)
    ensures |r| <= |s|
    ensures r == [] || !IsBlank(r[0])
  {
    if s != [] && IsBlank(s[0]) then SkipBlanks(s[1..]) else s
  }

  /** strstr(s, "\n"): the position of the first newline of s, if any. It is written
      out by recursion so that the lexer's proofs can unfold it; NewlineIndexIsFind
      proves it equal to Find(s, "\n"), which is what makes it strstr. */
  function NewlineIndex(s: string): (r: Option<nat>)
    ensures r.Some? ==> r.value < |s| && s[r.value] == '\n'
    ensures r.None? ==> '\n' !in s
  {
    if s == [] then None
    else if s[0] == '\n' then Some(0)
    else match NewlineIndex(s[1..])
      case None => None
      case Some(i) => Some(i + 1)
  }

  /** What the lexer hands to the interpreter: no newline, no leading blank. */
  predicate Trimmed(c: string) {
    '\n' !in c && (c == [] || !IsBlank(c[0]))
  }

  /** The commands of a chunk, and the unterminated text after its last newline
      (with its leading blanks already skipped). */
  datatype Lexed = Lexed(cmds: seq<string>, rest: string)

  /** The lexer: after skipping blanks, everything up to the first newline is one
      command; lexing resumes after the newline. Text with no newline left is kept
      as the rest rather than read past (see LexAsWritten for the source's loop). */
  function Lex(s: string): (r: Lexed)
    ensures '\n' !in r.rest
    decreases |s|, 1
  {
    LexAfterBlanks(SkipBlanks(s))
  }

  /** Lexing text whose leading blanks are already skipped. */
  function LexAfterBlanks(t: string): (r: Lexed)
    ensures '\n' !in r.rest
    decreases |t|, 0
  {
    match NewlineIndex(t)
    case None => Lexed([], t)
    case Some(k) =>
      var r := Lex(t[k + 1..]);
      Lexed([t[..k]] + r.cmds, r.rest)
  }

  /** The lexer loop as the source writes it. The loop runs while the current
      character is not the terminating NUL; when no newline follows the skipped
      blanks, strstr returns NULL and the command length `tail - head` is
      undefined behaviour, modelled as None. */
  function LexAsWritten(s: string): (r: Option<seq<string>>)
    ensures r.Some? && s != [] ==> s[|s| - 1] == '\n'
    decreases |s|
  {
    if s == [] then Some([])
    else
      var t := SkipBlanks(s);
      SkipBlanksSuffix(s);
      match NewlineIndex(t)
      case None => None
      case Some(k) =>
        var u := t[k + 1..];
        assert u != [] ==> u[|u| - 1] == s[|s| - 1];
        match LexAsWritten(u)
        case None => None
        case Some(more) => Some([t[..k]] + more)
  }

  /** The number of occurrences of c in s. */
  function Count(s: string, c: char): (n: nat) {
    if s == [] then 0 else (if s[0] == c then 1 else 0) + Count(s[1..], c)
  }

  /** The text a sequence of commands is sent as: each followed by a newline. */
  function Unlex(cmds: seq<string>): (text: string) {
    if cmds == [] then [] else cmds[0] + "\n" + Unlex(cmds[1..])
  }

  // ---------------------------------------------------------------------------
  // Helper facts

  lemma {:induction false} SkipBlanksAppend(a: string, b: string)
    ensures SkipBlanks(a + b) == if SkipBlanks(a) == [] then SkipBlanks(b) else SkipBlanks(a) + b
  {
    if a == [] {
      assert a + b == b;
    } else if IsBlank(a[0]) {
      assert (a + b)[0] == a[0];
      assert (a + b)[1..] == a[1..] + b;
      SkipBlanksAppend(a[1..], b);
    } else {
      assert (a + b)[0] == a[0];
    }
  }

  /** Skipping blanks drops only spaces and tabs, and only from the front: the
      result is the rest of the text, unchanged. */
  lemma {:induction false} SkipBlanksSuffix(s: string)
    ensures SkipBlanks(s) == s[|s| - |SkipBlanks(s)|..]
    ensures forall i :: 0 <= i < |s| - |SkipBlanks(s)| ==> IsBlank(s[i])
  {
    if s != [] && IsBlank(s[0]) {
      SkipBlanksSuffix(s[1..]);
      assert forall i :: 1 <= i < |s| ==> s[i] == s[1..][i - 1];
    }
  }

  /** A text made only of spaces and tabs is skipped entirely. */
  lemma {:induction false} SkipAllBlanks(b: string)
    requires forall i :: 0 <= i < |b| ==> IsBlank(b[i])
    ensures SkipBlanks(b) == []
  {
    if b != [] {
      SkipAllBlanks(b[1..]);
    }
  }

  /** A text made only of blanks has its last character blank. */
  lemma {:induction false} SkipBlanksAllBlank(s: string)
    requires s != [] && SkipBlanks(s) == []
    ensures IsBlank(s[|s| - 1])
  {
    if |s| > 1 {
      assert s[1..][|s[1..]| - 1] == s[|s| - 1];
      SkipBlanksAllBlank(s[1..]);
    }
  }

  lemma {:induction false} CountAppend(a: string, b: string, c: char)
    ensures Count(a + b, c) == Count(a, c) + Count(b, c)
  {
    if a == [] {
      assert a + b == b;
    } else {
      assert (a + b)[0] == a[0];
      assert (a + b)[1..] == a[1..] + b;
      CountAppend(a[1..], b, c);
    }
  }

  lemma {:induction false} CountAbsent(s: string, c: char)
    requires c !in s
    ensures Count(s, c) == 0
  {
    if s != [] {
      assert s[0] in s;
      assert forall x :: x in s[1..] ==> x in s;
      CountAbsent(s[1..], c);
    }
  }

  lemma {:induction false} CountSkipBlanks(s: string)
    ensures Count(SkipBlanks(s), '\n') == Count(s, '\n')
  {
    if s != [] && IsBlank(s[0]) {
      CountSkipBlanks(s[1..]);
    }
  }

  lemma {:induction false} NewlineIndexSpec(s: string)
    ensures NewlineIndex(s).Some? ==> '\n' !in s[..NewlineIndex(s).value]
    ensures NewlineIndex(s).None? <==> '\n' !in s
  {
    if s != [] && s[0] != '\n' {
      NewlineIndexSpec(s[1..]);
      assert s == [s[0]] + s[1..];
      match NewlineIndex(s[1..])
      case None =>
      case Some(i) =>
        assert s[..i + 1] == [s[0]] + s[1..][..i];
    }
  }

  /** The lexer's newline search is strstr(s, "\n"). */
  lemma NewlineIndexIsFind(s: string)
    ensures NewlineIndex(s) == Find(s, "\n")
  {
    NewlineIndexSpec(s);
    FindSpec(s, "\n");
    forall j | 0 <= j < |s| ensures OccursAt(s, "\n", j) <==> s[j] == '\n' {
      assert s[j..j + 1] == [s[j]];
    }
    match NewlineIndex(s)
    case None =>
      assert forall j :: 0 <= j < |s| ==> s[j] != '\n';
    case Some(k) =>
      assert OccursAt(s, "\n", k);
      assert forall j :: 0 <= j < k ==> s[..k][j] == s[j];
  }

  /** The first newline of s is also the first newline of s + t. */
  lemma {:induction false} NewlineIndexAppend(s: string, t: string)
    requires '\n' in s
    ensures NewlineIndex(s + t) == NewlineIndex(s)
  {
    assert (s + t)[0] == s[0];
    if s[0] != '\n' {
      assert (s + t)[1..] == s[1..] + t;
      assert '\n' in s[1..];
      NewlineIndexAppend(s[1..], t);
    }
  }

  /** The first newline of `c + "\n" + u`, for a command c without one, ends c. */
  lemma {:induction false} NewlineAfter(c: string, u: string)
    requires '\n' !in c
    ensures NewlineIndex(c + "\n" + u) == Some(|c|)
  {
    var s := c + "\n" + u;
    if c == [] {
      assert s[0] == '\n';
    } else {
      assert s[0] == c[0];
      assert s[1..] == c[1..] + "\n" + u;
      NewlineAfter(c[1..], u);
    }
  }

  // ---------------------------------------------------------------------------
  // The lexer loop, one step at a time

  /** Skipping one blank does not change where the blank skip ends. */
  lemma SkipBlankStep(s: string, h: nat)
    requires h < |s| && IsBlank(s[h])
    ensures SkipBlanks(s[h..]) == SkipBlanks(s[h + 1..])
  {
    assert s[h..][1..] == s[h + 1..];
  }

  /** The blank skip stops at the end of the text or at its first non-blank. */
  lemma SkipBlanksDone(s: string, h: nat)
    requires h <= |s| && (h == |s| || !IsBlank(s[h]))
    ensures SkipBlanks(s[h..]) == s[h..]
  {
    if h < |s| {
      assert s[h..][0] == s[h];
    }
  }

  /** One command found by the loop: blanks skipped from `start` up to `head`, and the
      first newline after `head` at `tail`; lexing goes on after the newline. */
  lemma LexCommandAt(s: string, start: nat, head: nat, tail: nat)
    requires start <= head <= tail < |s|
    requires SkipBlanks(s[start..]) == s[head..]
    requires s[tail] == '\n' && '\n' !in s[head..tail]
    ensures Lex(s[start..]) == Lexed([s[head..tail]] + Lex(s[tail + 1..]).cmds, Lex(s[tail + 1..]).rest)
  {
    var c, u := s[head..tail], s[tail + 1..];
    assert s[head..] == c + "\n" + u;
    LexAfterNewline(c, u);
  }

  /** A command and its newline, then more text: the command is lexed, and lexing
      goes on after the newline. */
  lemma LexAfterNewline(c: string, u: string)
    requires '\n' !in c
    ensures LexAfterBlanks(c + "\n" + u) == Lexed([c] + Lex(u).cmds, Lex(u).rest)
  {
    var t := c + "\n" + u;
    NewlineAfter(c, u);
    assert t[..|c|] == c;
    assert t[|c| + 1..] == u;
  }

  /** No newline after the skipped blanks: the rest of the text is kept. */
  lemma LexRestAt(s: string, start: nat, head: nat)
    requires start <= head <= |s|
    requires SkipBlanks(s[start..]) == s[head..]
    requires '\n' !in s[head..]
    ensures Lex(s[start..]) == Lexed([], s[head..])
  {
    NewlineIndexSpec(s[head..]);
  }

  /** A step of the lexer loop over a text whose lexing is `lx`, with k commands
      already handed over: the command between `head` and the newline at `tail` is
      the next one, and lexing after the newline gives the commands after it. */
  lemma LexLoopStep(text: string, start: nat, head: nat, tail: nat, lx: Lexed, k: nat)
    requires start <= head <= tail < |text|
    requires k <= |lx.cmds| && Lex(text[start..]) == Lexed(lx.cmds[k..], lx.rest)
    requires SkipBlanks(text[start..]) == text[head..]
    requires text[tail] == '\n' && '\n' !in text[head..tail]
    ensures k < |lx.cmds| && lx.cmds[k] == text[head..tail]
    ensures Lex(text[tail + 1..]) == Lexed(lx.cmds[k + 1..], lx.rest)
  {
    LexCommandAt(text, start, head, tail);
    var more := Lex(text[tail + 1..]);
    assert lx.cmds[k..] == [text[head..tail]] + more.cmds;
    assert lx.cmds[k..][0] == lx.cmds[k];
    assert lx.cmds[k + 1..] == lx.cmds[k..][1..];
  }

  /** The lexer loop ends without a newline: every command has been handed over and
      the text from `head` on is the rest. */
  lemma LexLoopRest(text: string, start: nat, head: nat, lx: Lexed, k: nat)
    requires start <= head <= |text|
    requires k <= |lx.cmds| && Lex(text[start..]) == Lexed(lx.cmds[k..], lx.rest)
    requires SkipBlanks(text[start..]) == text[head..]
    requires '\n' !in text[head..]
    ensures k == |lx.cmds| && lx.rest == text[head..]
  {
    LexRestAt(text, start, head);
  }

  /** The lexer loop reaches the end of the text: every command has been handed over
      and nothing is left. */
  lemma LexLoopEnd(text: string, lx: Lexed, k: nat)
    requires k <= |lx.cmds| && Lex(text[|text|..]) == Lexed(lx.cmds[k..], lx.rest)
    ensures k == |lx.cmds| && lx.rest == []
  {
    assert text[|text|..] == [];
    assert SkipBlanks([]) == [];
    assert NewlineIndex([]) == None;
  }

  // ---------------------------------------------------------------------------
  // Properties of the lexer

  /** Every command the lexer yields, and the rest it keeps, holds no newline and
      starts with no blank. */
  lemma {:induction false} LexTrimmed(s: string)
    ensures forall i :: 0 <= i < |Lex(s).cmds| ==> Trimmed(Lex(s).cmds[i])
    ensures Trimmed(Lex(s).rest)
    decreases |s|
  {
    var t := SkipBlanks(s);
    NewlineIndexSpec(t);
    match NewlineIndex(t)
    case None =>
    case Some(k) =>
      LexTrimmed(t[k + 1..]);
      assert k > 0 ==> t[..k][0] == t[0];
  }

  /** Blanks before a command are skipped: they change nothing in the lexing. */
  lemma LexBlanksPrefix(b: string, s: string)
    requires forall i :: 0 <= i < |b| ==> IsBlank(b[i])
    ensures Lex(b + s) == Lex(s)
  {
    SkipAllBlanks(b);
    SkipBlanksAppend(b, s);
  }

  /** One command per newline: the lexer neither loses nor invents a command. */
  lemma {:induction false} LexCount(s: string)
    ensures |Lex(s).cmds| == Count(s, '\n')
    decreases |s|
  {
    var t := SkipBlanks(s);
    CountSkipBlanks(s);
    NewlineIndexSpec(t);
    match NewlineIndex(t)
    case None =>
      CountAbsent(t, '\n');
    case Some(k) =>
      assert t == t[..k] + [t[k]] + t[k + 1..];
      CountAppend(t[..k] + [t[k]], t[k + 1..], '\n');
      CountAppend(t[..k], [t[k]], '\n');
      CountAbsent(t[..k], '\n');
      LexCount(t[k + 1..]);
  }

  /** Lexing the text commands are sent as gives back exactly those commands, in
      order, with nothing left over. */
  lemma {:induction false} LexUnlex(cmds: seq<string>)
    requires forall i :: 0 <= i < |cmds| ==> Trimmed(cmds[i])
    ensures Lex(Unlex(cmds)) == Lexed(cmds, [])
  {
    if cmds != [] {
      var c := cmds[0];
      var u := Unlex(cmds[1..]);
      var s := c + "\n" + u;
      assert s[0] == if c == [] then '\n' else c[0];
      assert SkipBlanks(s) == s;
      NewlineAfter(c, u);
      assert s[..|c|] == c;
      assert s[|c| + 1..] == u;
      LexUnlex(cmds[1..]);
    }
  }

  /** Lexing a text whose first segment has no newline yet. */
  lemma LexAppendUnterminated(a: string, b: string)
    requires NewlineIndex(SkipBlanks(a)).None?
    ensures Lex(a) == Lexed([], SkipBlanks(a))
    ensures Lex(a + b) == Lex(SkipBlanks(a) + b)
  {
    var t := SkipBlanks(a);
    SkipBlanksAppend(a, b);
    if t == [] {
      assert [] + b == b;
      SkipBlanksSuffix(a);
      LexBlanksPrefix(a, b);
    } else {
      assert SkipBlanks(t + b) == t + b;
    }
  }

  /** Lexing a text whose first segment is a complete command. */
  lemma LexAppendTerminated(a: string, b: string, k: nat)
    requires NewlineIndex(SkipBlanks(a)) == Some(k)
    ensures var t := SkipBlanks(a);
      Lex(a) == Lexed([t[..k]] + Lex(t[k + 1..]).cmds, Lex(t[k + 1..]).rest) &&
      Lex(a + b) == Lexed([t[..k]] + Lex(t[k + 1..] + b).cmds, Lex(t[k + 1..] + b).rest)
  {
    var t := SkipBlanks(a);
    SkipBlanksAppend(a, b);
    assert t[k] in t;
    NewlineIndexAppend(t, b);
    assert (t + b)[..k] == t[..k];
    assert (t + b)[k + 1..] == t[k + 1..] + b;
  }

  lemma LexedAssoc(c: string, ra: Lexed, ru: Lexed, rb: Lexed, rub: Lexed, rab: Lexed)
    requires ra == Lexed([c] + ru.cmds, ru.rest)
    requires rub == Lexed(ru.cmds + rb.cmds, rb.rest)
    requires rab == Lexed([c] + rub.cmds, rub.rest)
    ensures rab == Lexed(ra.cmds + rb.cmds, rb.rest)
  {
    assert [c] + (ru.cmds + rb.cmds) == ([c] + ru.cmds) + rb.cmds;
  }

  /** Splitting a text into two reads does not change the commands found, provided the
      unterminated rest of the first read is put in front of the second. */
  lemma {:induction false} LexAppend(a: string, b: string)
    ensures Lex(a + b) == Lexed(Lex(a).cmds + Lex(Lex(a).rest + b).cmds, Lex(Lex(a).rest + b).rest)
    decreases |a|
  {
    var t := SkipBlanks(a);
    match NewlineIndex(t)
    case None =>
      LexAppendUnterminated(a, b);
      assert [] + Lex(t + b).cmds == Lex(t + b).cmds;
    case Some(k) =>
      var u := t[k + 1..];
      LexAppend(u, b);
      LexAppendTerminated(a, b, k);
      LexedAssoc(t[..k], Lex(a), Lex(u), Lex(Lex(u).rest + b), Lex(u + b), Lex(a + b));
  }

  /** The source's loop is defined exactly on the texts that are empty or end in a
      newline. */
  lemma {:induction false} LexAsWrittenDefined(s: string)
    ensures LexAsWritten(s).Some? <==> (s == [] || s[|s| - 1] == '\n')
    decreases |s|
  {
    if s != [] {
      var t := SkipBlanks(s);
      NewlineIndexSpec(t);
      SkipBlanksSuffix(s);
      match NewlineIndex(t)
      case None =>
        if t == [] {
          SkipBlanksAllBlank(s);
        } else {
          assert s[|s| - 1] == t[|t| - 1];
          assert t[|t| - 1] in t;
        }
      case Some(k) =>
        var u := t[k + 1..];
        LexAsWrittenDefined(u);
        if u != [] {
          assert s[|s| - 1] == u[|u| - 1];
        } else {
          assert s[|s| - 1] == t[k];
        }
    }
  }

  /** Where the source's loop is defined, it hands over the commands the lexer finds
      and keeps nothing. */
  lemma {:induction false} LexAsWrittenMatches(s: string)
    ensures LexAsWritten(s).Some? ==> Lex(s) == Lexed(LexAsWritten(s).value, [])
    decreases |s|
  {
    if s != [] {
      var t := SkipBlanks(s);
      match NewlineIndex(t)
      case None =>
      case Some(k) =>
        LexAsWrittenMatches(t[k + 1..]);
    }
  }

  /** Where the source's loop is defined, the lexer agrees with it. The source's loop
      is defined exactly on the texts that are empty or end in a newline. */
  lemma LexAsWrittenAgrees(s: string)
    ensures LexAsWritten(s).Some? <==> (s == [] || s[|s| - 1] == '\n')
    ensures LexAsWritten(s).Some? ==> Lex(s) == Lexed(LexAsWritten(s).value, [])
  {
    LexAsWrittenDefined(s);
    LexAsWrittenMatches(s);
  }

  /** A read without any newline yields no command: the lexer keeps the text, while
      the source's loop is undefined on it. */
  lemma LexUnterminated(s: string)
    requires s != [] && '\n' !in s
    ensures LexAsWritten(s) == None
    ensures Lex(s) == Lexed([], SkipBlanks(s))
  {
    LexAsWrittenAgrees(s);
    assert s[|s| - 1] in s;
    var t := SkipBlanks(s);
    SkipBlanksSuffix(s);
    NewlineIndexSpec(t);
    assert forall c :: c in t ==> c in s;
  }

  /** The source's undefined case: a read with no newline, such as "PERIOD=3". The
      lexer instead yields no command and keeps the text for the next read. */
  lemma UnterminatedReadUndefined()
    ensures LexAsWritten("PERIOD=3") == None
    ensures Lex("PERIOD=3") == Lexed([], "PERIOD=3")
  {
    LexUnterminated("PERIOD=3");
    assert SkipBlanks("PERIOD=3") == "PERIOD=3";
  }

  /** Trailing blanks after the last newline are also undefined in the source: the
      blank skip reaches the NUL and strstr returns NULL. */
  lemma TrailingBlanksUndefined()
    ensures LexAsWritten("STOP\n ") == None
    ensures Lex("STOP\n ") == Lexed(["STOP"], [])
  {
    var s := "STOP\n ";
    assert LexAsWritten(s) == None by {
      LexAsWrittenAgrees(s);
    }
    assert s == "STOP" + "\n" + " ";
    NewlineAfter("STOP", " ");
    assert SkipBlanks(s) == s;
    assert s[..4] == "STOP" && s[5..] == " ";
    assert Lex(" ") == Lexed([], []) by {
      assert SkipBlanks(" ") == [];
    }
  }
}

=== FILE: protocol.dfy ===
/** The command/report engine as a state machine over values: the settings that
    parse_option changes, the report schedule, and the ordered trace of everything
    written to the log file and to the transport (stdout in the tcp program, the TLS
    session in the tls program). */
module Protocol {
  import opened Text
  import opened Lexer
  import opened Commands

  /** read() and SSL_read() store at most this many bytes; the buffer has one more
      cell for the terminator. */
  const InputSize: nat := 1023

  // ---------------------------------------------------------------------------
  // Time stamps

  /** The fields of localtime() that the agent prints. */
  datatype LocalTime = LocalTime(hour: nat, minute: nat, second: nat)

  /** tm_sec runs to 60 to allow for a leap second. */
  predicate ValidTime(t: LocalTime) {
    t.hour < 24 && t.minute < 60 && t.second <= 60
  }

  /** "%02d:%02d:%02d" */
  function Timestamp(t: LocalTime): (text: string)
    ensures ValidTime(t) ==> |text| == 8
  {
    Pad2(t.hour) + ":" + Pad2(t.minute) + ":" + Pad2(t.second)
  }

  /** A time stamp is exactly eight characters, HH:MM:SS, and each field reads back. */
  lemma TimestampFormat(t: LocalTime)
    requires ValidTime(t)
    ensures |Timestamp(t)| == 8
    ensures Timestamp(t)[2] == ':' && Timestamp(t)[5] == ':'
    ensures Atoi(Timestamp(t)[..2]) == t.hour
    ensures Atoi(Timestamp(t)[3..5]) == t.minute
    ensures Atoi(Timestamp(t)[6..]) == t.second
  {
    Pad2RoundTrip(t.hour);
    Pad2RoundTrip(t.minute);
    Pad2RoundTrip(t.second);
    var ts := Timestamp(t);
    assert ts[..2] == Pad2(t.hour);
    assert ts[3..5] == Pad2(t.minute);
    assert ts[6..] == Pad2(t.second);
  }

  /** A periodic report: the time stamp, a space, and the printed temperature. */
  function ReportLine(t: LocalTime, reading: string): (line: string)
    ensures ValidTime(t) ==> |line| == 9 + |reading| && line[8] == ' ' && line[9..] == reading
  {
    Timestamp(t) + " " + reading
  }

  /** The line written when the agent shuts down: the time stamp and SHUTDOWN. */
  function ShutdownLine(t: LocalTime): (line: string)
    ensures ValidTime(t) ==> |line| == 17 && line[8..] == " SHUTDOWN"
  {
    Timestamp(t) + " SHUTDOWN"
  }

  // ---------------------------------------------------------------------------
  // What the agent does to the outside world

  datatype Effect =
    | LogLine(text: string)     // fprintf to the log file
    | Send(text: string)        // stdout, or SSL_write
    | CloseLog                  // fclose of the log file
    | CloseTransport            // SSL_shutdown and exit

  datatype SessionState = SessionState(
    scale: Scale,
    reporting: bool,          // opt_report
    period: int,              // opt_period, seconds
    lastReport: int,          // last_report, seconds
    clock: LocalTime,         // localtime of the last gettimeofday
    logging: bool,            // opt_log
    trace: seq<Effect>,
    terminated: bool,
    pending: string)          // an incomplete command kept for the next read

  function Initial(scale: Scale, period: int, logging: bool, start: int, clock: LocalTime): (st: SessionState) {
    SessionState(scale, true, period, start, clock, logging, [], false, [])
  }

  predicate EndsLine(x: string) {
    x != [] && x[|x| - 1] == '\n'
  }

  /** The effects of log_and_print(line). */
  function Emitted(logging: bool, line: string): (effects: seq<Effect>) {
    (if logging then [LogLine(line + "\n")] else []) + [Send(line + "\n")]
  }

  function Emit(st: SessionState, line: string): (r: SessionState)
    ensures |r.trace| == |st.trace| + if st.logging then 2 else 1
  {
    st.(trace := st.trace + Emitted(st.logging, line))
  }

  /** What closing the session adds after the shutdown line. */
  function Closing(logging: bool): (effects: seq<Effect>) {
    (if logging then [CloseLog] else []) + [CloseTransport]
  }

  /** shut_down (button_shutdown in the tcp program): report SHUTDOWN with the current
      time, close the log, close the transport, and stop. */
  function Halt(st: SessionState): (r: SessionState)
    ensures r.terminated
  {
    if st.terminated then st
    else
      var st1 := Emit(st, ShutdownLine(st.clock));
      st1.(trace := st1.trace + Closing(st.logging), terminated := true)
  }

  /** The first thing parse_option does: the command line goes to the log. */
  function LogCommand(st: SessionState, line: string): (r: SessionState)
    ensures r.(trace := st.trace) == st
    ensures |r.trace| == |st.trace| + if st.logging then 1 else 0
  {
    if st.logging then st.(trace := st.trace + [LogLine(line + "\n")]) else st
  }

  /** The state change parse_option makes for a recognised command. */
  function Apply(st: SessionState, cmd: Command): (r: SessionState)
    ensures r.logging == st.logging && r.pending == st.pending
    ensures r.terminated <==> st.terminated || cmd.Off?
  {
    match cmd
    case SetScale(s) => st.(scale := s)
    case Stop => st.(reporting := false)
    case Start => st.(reporting := true)
    case Off => Halt(st)
    case SetPeriod(p) => st.(period := p)
    case LogNote => st
    case Unrecognized => st
  }

  /** parse_option(line) */
  function Interpret(st: SessionState, line: string): (r: SessionState)
    ensures r.terminated <==> st.terminated || line == "OFF"
    ensures r.logging == st.logging && r.pending == st.pending
  {
    if st.terminated then st else Apply(LogCommand(st, line), Classify(line))
  }

  /** parse_option applied to each command in turn. */
  function RunLines(st: SessionState, lines: seq<string>): (r: SessionState)
    ensures r.logging == st.logging && r.pending == st.pending
    ensures r.terminated <==> st.terminated || "OFF" in lines
    decreases |lines|
  {
    if lines == [] then st else RunLines(Interpret(st, lines[0]), lines[1..])
  }

  /** The lexer loop over `text`: its complete commands are interpreted in order
      until the session ends, and the unterminated remainder is kept. */
  function Dispatch(st: SessionState, text: string): (r: SessionState)
    ensures !r.terminated ==> '\n' !in r.pending
  {
    var lx := Lex(text);
    var r := RunLines(st, lx.cmds);
    if r.terminated then r else r.(pending := lx.rest)
  }

  /** One read of `data`: the terminated read buffer is lexed after what was kept from
      the previous read. */
  function Consume(st: SessionState, data: string): (r: SessionState)
    ensures st.terminated ==> r == st
    ensures !r.terminated ==> '\n' !in r.pending
  {
    if st.terminated then st else Dispatch(st.(pending := []), st.pending + CString(data))
  }

  /** The report condition: opt_report == 1 && difftime(current, last_report) >= opt_period. */
  predicate ReportDue(st: SessionState, now: int) {
    st.reporting && now - st.lastReport >= st.period
  }

  /** One pass of the scheduler at time `now` (local time `local`), with the printed
      reading `reading`; `reportedAt` is what time() returns right after the report. */
  function Schedule(st: SessionState, now: int, local: LocalTime, reading: string, reportedAt: int): (r: SessionState)
    ensures r.(trace := st.trace, clock := st.clock, lastReport := st.lastReport) == st
    ensures r.lastReport == st.lastReport || r.lastReport == reportedAt
  {
    if st.terminated then st
    else
      var st1 := st.(clock := local);
      if ReportDue(st, now) then Emit(st1, ReportLine(local, reading)).(lastReport := reportedAt)
      else st1
  }

  // ---------------------------------------------------------------------------
  // The trace invariant

  predicate IsClose(e: Effect) {
    e.CloseLog? || e.CloseTransport?
  }

  /** Position i of a trace with no closing effects is in order: a log line only when
      logging, every line newline-terminated, and every sent line preceded, when
      logging, by the same line in the log. */
  predicate StepOk(tr: seq<Effect>, logging: bool, i: nat)
    requires i < |tr|
  {
    match tr[i]
    case LogLine(x) => logging && EndsLine(x)
    case Send(x) => EndsLine(x) && (logging ==> 0 < i && tr[i - 1] == LogLine(x))
    case CloseLog => false
    case CloseTransport => false
  }

  predicate Orderly(tr: seq<Effect>, logging: bool) {
    forall i: nat :: i < |tr| ==> StepOk(tr, logging, i)
  }

  /** The session invariant: the trace is an orderly body followed, once the session
      is over and only then, by the closing effects; the kept input is trimmed. */
  predicate Invariant(st: SessionState) {
    var c := if st.terminated then Closing(st.logging) else [];
    Trimmed(st.pending) &&
    |c| <= |st.trace| &&
    Orderly(st.trace[..|st.trace| - |c|], st.logging) &&
    st.trace[|st.trace| - |c|..] == c
  }

  lemma {:induction false} OrderlyAppend(a: seq<Effect>, b: seq<Effect>, logging: bool)
    requires Orderly(a, logging) && Orderly(b, logging)
    ensures Orderly(a + b, logging)
  {
    var ab := a + b;
    forall i: nat | i < |ab| ensures StepOk(ab, logging, i) {
      if i < |a| {
        assert StepOk(a, logging, i);
        assert ab[i] == a[i];
        if 0 < i { assert ab[i - 1] == a[i - 1]; }
      } else {
        assert StepOk(b, logging, i - |a|);
        assert ab[i] == b[i - |a|];
        if |a| < i { assert ab[i - 1] == b[i - |a| - 1]; }
      }
    }
  }

  lemma OrderlyEmitted(logging: bool, line: string)
    ensures Orderly(Emitted(logging, line), logging)
  {
    var e := Emitted(logging, line);
    assert EndsLine(line + "\n");
    forall i: nat | i < |e| ensures StepOk(e, logging, i) {
    }
  }

  lemma OrderlyLogged(logging: bool, line: string)
    requires logging
    ensures Orderly([LogLine(line + "\n")], logging)
  {
    assert EndsLine(line + "\n");
    assert StepOk([LogLine(line + "\n")], logging, 0);
  }

  /** A running session's trace is orderly, with no closing effect in it. */
  lemma RunningTrace(st: SessionState)
    requires Invariant(st) && !st.terminated
    ensures Orderly(st.trace, st.logging)
  {
    assert st.trace[..|st.trace|] == st.trace;
  }

  /** The invariant of a session that has just been closed, from its orderly body. */
  lemma ClosedInvariant(st: SessionState, body: seq<Effect>)
    requires st.terminated && Trimmed(st.pending)
    requires Orderly(body, st.logging) && st.trace == body + Closing(st.logging)
    ensures Invariant(st)
  {
    assert st.trace[..|body|] == body;
    assert st.trace[|body|..] == Closing(st.logging);
  }

  lemma InitialInvariant(scale: Scale, period: int, logging: bool, start: int, clock: LocalTime)
    ensures Invariant(Initial(scale, period, logging, start, clock))
  {
    assert Trimmed([]);
  }

  lemma EmitInvariant(st: SessionState, line: string)
    requires Invariant(st) && !st.terminated
    ensures Invariant(Emit(st, line))
  {
    RunningTrace(st);
    OrderlyEmitted(st.logging, line);
    OrderlyAppend(st.trace, Emitted(st.logging, line), st.logging);
    var tr := Emit(st, line).trace;
    assert tr[..|tr|] == tr;
  }

  lemma HaltInvariant(st: SessionState)
    requires Invariant(st)
    ensures Invariant(Halt(st))
  {
    if !st.terminated {
      var st1 := Emit(st, ShutdownLine(st.clock));
      RunningTrace(st);
      OrderlyEmitted(st.logging, ShutdownLine(st.clock));
      OrderlyAppend(st.trace, Emitted(st.logging, ShutdownLine(st.clock)), st.logging);
      ClosedInvariant(Halt(st), st1.trace);
    }
  }

  /** Shutting a running session down writes the SHUTDOWN line with the current time,
      to the log when logging and then to the transport, then closes the log and the
      transport; nothing else changes but the session ending. */
  lemma HaltTrace(st: SessionState)
    requires !st.terminated
    ensures Halt(st).trace == st.trace + Emitted(st.logging, ShutdownLine(st.clock)) + Closing(st.logging)
    ensures Halt(st).(trace := st.trace, terminated := false) == st
  {
  }

  /** Shutting down an ended session has no effect. */
  lemma HaltDone(st: SessionState)
    requires st.terminated
    ensures Halt(st) == st
  {
  }

  lemma LogCommandInvariant(st: SessionState, line: string)
    requires Invariant(st) && !st.terminated
    ensures Invariant(LogCommand(st, line)) && !LogCommand(st, line).terminated
  {
    if st.logging {
      RunningTrace(st);
      OrderlyLogged(st.logging, line);
      OrderlyAppend(st.trace, [LogLine(line + "\n")], st.logging);
      var tr := LogCommand(st, line).trace;
      assert tr[..|tr|] == tr;
    }
  }

  /** The invariant reads only the trace, whether logging is on, whether the session
      is over, and the kept input: the settings do not enter into it. */
  lemma SettingsFree(st: SessionState, st': SessionState)
    requires Invariant(st)
    requires st'.trace == st.trace && st'.logging == st.logging
    requires st'.terminated == st.terminated && st'.pending == st.pending
    ensures Invariant(st')
  {
  }

  lemma ApplyInvariant(st: SessionState, cmd: Command)
    requires Invariant(st)
    ensures Invariant(Apply(st, cmd))
  {
    if cmd == Off {
      HaltInvariant(st);
    } else {
      SettingsFree(st, Apply(st, cmd));
    }
  }

  /** parse_option keeps the invariant, whatever the line. */
  lemma InterpretInvariant(st: SessionState, line: string)
    requires Invariant(st)
    ensures Invariant(Interpret(st, line))
  {
    if !st.terminated {
      LogCommandInvariant(st, line);
      ApplyInvariant(LogCommand(st, line), Classify(line));
    }
  }

  lemma {:induction false} RunLinesInvariant(st: SessionState, lines: seq<string>)
    requires Invariant(st)
    ensures Invariant(RunLines(st, lines))
    decreases |lines|
  {
    if lines != [] {
      InterpretInvariant(st, lines[0]);
      RunLinesInvariant(Interpret(st, lines[0]), lines[1..]);
    }
  }

  /** Interpreting commands never touches what is kept for the next read. */
  lemma {:induction false} RunLinesPending(st: SessionState, lines: seq<string>)
    ensures RunLines(st, lines).pending == st.pending
    ensures RunLines(st, lines).logging == st.logging
    decreases |lines|
  {
    if lines != [] {
      RunLinesPending(Interpret(st, lines[0]), lines[1..]);
    }
  }

  lemma ClearPendingInvariant(st: SessionState)
    requires Invariant(st) && !st.terminated
    ensures Invariant(st.(pending := []))
  {
    RunningTrace(st);
    assert Trimmed([]);
    assert st.trace[..|st.trace|] == st.trace;
  }

  /** The lexer loop keeps the invariant. */
  lemma DispatchInvariant(st: SessionState, text: string)
    requires Invariant(st)
    ensures Invariant(Dispatch(st, text))
  {
    LexTrimmed(text);
    RunLinesInvariant(st, Lex(text).cmds);
    RunLinesPending(st, Lex(text).cmds);
    var r := RunLines(st, Lex(text).cmds);
    if !r.terminated {
      RunningTrace(r);
      var tr := r.trace;
      assert tr[..|tr|] == tr;
    }
  }

  /** Processing a read keeps the invariant. */
  lemma ConsumeInvariant(st: SessionState, data: string)
    requires Invariant(st)
    ensures Invariant(Consume(st, data))
  {
    if !st.terminated {
      ClearPendingInvariant(st);
      DispatchInvariant(st.(pending := []), st.pending + CString(data));
    }
  }

  /** A pass of the scheduler keeps the invariant. */
  lemma ScheduleInvariant(st: SessionState, now: int, local: LocalTime, reading: string, reportedAt: int)
    requires Invariant(st)
    ensures Invariant(Schedule(st, now, local, reading, reportedAt))
  {
    if !st.terminated && ReportDue(st, now) {
      EmitInvariant(st.(clock := local), ReportLine(local, reading));
    }
  }

  /** Under the invariant, a closing effect appears only in the final closing suffix
      of a terminated session: nothing is logged or sent after the log or the
      transport is closed. */
  lemma ClosingIsLast(st: SessionState, i: nat)
    requires Invariant(st) && i < |st.trace| && IsClose(st.trace[i])
    ensures st.terminated
    ensures |st.trace| - |Closing(st.logging)| <= i
  {
    var c := if st.terminated then Closing(st.logging) else [];
    OrderlyHasNoClose(st.trace, |st.trace| - |c|, st.logging);
  }

  /** An orderly prefix holds no closing effect. */
  lemma OrderlyHasNoClose(tr: seq<Effect>, n: nat, logging: bool)
    requires n <= |tr| && Orderly(tr[..n], logging)
    ensures forall i :: 0 <= i < n ==> !IsClose(tr[i])
  {
    forall i | 0 <= i < n
      ensures !IsClose(tr[i])
    {
      assert tr[..n][i] == tr[i];
      assert StepOk(tr[..n], logging, i);
    }
  }

  // ---------------------------------------------------------------------------
  // parse_option

  /** Every command line, recognised or not, is logged before anything else happens:
      the trace so far, then the logged line, is a prefix of the new trace. */
  lemma InterpretLogsFirst(st: SessionState, line: string)
    requires !st.terminated
    ensures LogCommand(st, line).trace <= Interpret(st, line).trace
    ensures st.logging ==> st.trace + [LogLine(line + "\n")] <= Interpret(st, line).trace
  {
    var st1 := LogCommand(st, line);
    if Classify(line) == Off {
      assert Interpret(st, line).trace == st1.trace + Emitted(st.logging, ShutdownLine(st.clock)) + Closing(st.logging);
    }
  }

  /** SCALE=F, SCALE=C, STOP and START, as whole lines, set their own flag and nothing
      else besides logging the line. */
  lemma InterpretExact(st: SessionState)
    requires !st.terminated
    ensures Interpret(st, "SCALE=F") == LogCommand(st, "SCALE=F").(scale := Fahrenheit)
    ensures Interpret(st, "SCALE=C") == LogCommand(st, "SCALE=C").(scale := Celsius)
    ensures Interpret(st, "STOP") == LogCommand(st, "STOP").(reporting := false)
    ensures Interpret(st, "START") == LogCommand(st, "START").(reporting := true)
  {
  }

  /** A line holding PERIOD= anywhere sets the period to atoi of what follows its first
      occurrence, and changes nothing else besides logging the line. */
  lemma InterpretPeriod(st: SessionState, pre: string, v: string)
    requires !st.terminated
    requires forall j :: 0 <= j < |pre| ==> !OccursAt(pre + PeriodKey + v, PeriodKey, j)
    ensures Interpret(st, pre + PeriodKey + v) == LogCommand(st, pre + PeriodKey + v).(period := Atoi(v))
  {
    ClassifyPeriodAnywhere(pre, v);
  }

  /** Any other line, a LOG note included, only goes to the log. */
  lemma InterpretNoEffect(st: SessionState, line: string)
    requires !st.terminated
    requires !IsExact(line)
    requires forall j :: 0 <= j ==> !OccursAt(line, PeriodKey, j)
    ensures Interpret(st, line) == LogCommand(st, line)
  {
    ClassifyNoPeriod(line);
  }

  /** OFF: the line is logged, the SHUTDOWN line with the current time is logged and
      sent, then the log and the transport are closed, and the session is over with
      its settings as they were. */
  lemma InterpretOff(st: SessionState)
    requires !st.terminated
    ensures var r := Interpret(st, "OFF");
      r.terminated &&
      r.trace == st.trace + (if st.logging then [LogLine("OFF\n")] else [])
                 + Emitted(st.logging, ShutdownLine(st.clock)) + Closing(st.logging) &&
      r.(trace := st.trace, terminated := false) == st
  {
    assert Classify("OFF") == Off;
    var st1 := LogCommand(st, "OFF");
    var l := if st.logging then [LogLine("OFF\n")] else [];
    assert st1.trace == st.trace + l by {
      assert "OFF" + "\n" == "OFF\n";
      if !st.logging { assert st.trace + [] == st.trace; }
    }
    assert Interpret(st, "OFF") == Halt(st1);
    assert Halt(st1).trace == st1.trace + Emitted(st.logging, ShutdownLine(st.clock)) + Closing(st.logging);
  }

  /** Once the session is over, no further command is interpreted. */
  lemma {:induction false} RunLinesTerminated(st: SessionState, lines: seq<string>)
    requires st.terminated
    ensures RunLines(st, lines) == st
    decreases |lines|
  {
    if lines != [] {
      RunLinesTerminated(Interpret(st, lines[0]), lines[1..]);
    }
  }

  lemma {:induction false} RunLinesAppend(st: SessionState, a: seq<string>, b: seq<string>)
    ensures RunLines(st, a + b) == RunLines(RunLines(st, a), b)
    decreases |a|
  {
    if a != [] {
      assert (a + b)[0] == a[0];
      assert (a + b)[1..] == a[1..] + b;
      RunLinesAppend(Interpret(st, a[0]), a[1..], b);
    } else {
      assert a + b == b;
    }
  }

  /** Interpreting one more command. */
  lemma RunLinesSnoc(st: SessionState, done: seq<string>, c: string)
    ensures RunLines(st, done + [c]) == Interpret(RunLines(st, done), c)
  {
    RunLinesAppend(st, done, [c]);
    assert [c][1..] == [];
  }

  /** Commands after an OFF in the same read are never interpreted. */
  lemma RunLinesStopsAtOff(st: SessionState, before: seq<string>, after: seq<string>)
    ensures RunLines(st, before + ["OFF"] + after) == Interpret(RunLines(st, before), "OFF")
    ensures RunLines(st, before + ["OFF"] + after).terminated
  {
    RunLinesAppend(st, before + ["OFF"], after);
    RunLinesAppend(st, before, ["OFF"]);
    var s1 := RunLines(st, before);
    assert RunLines(s1, ["OFF"]) == RunLines(Interpret(s1, "OFF"), []);
    RunLinesTerminated(Interpret(s1, "OFF"), after);
  }

  // ---------------------------------------------------------------------------
  // The scheduler

  /** A report is produced exactly when reporting is on and a period has elapsed;
      last_report moves only then; the settings are untouched. */
  lemma ScheduleDecision(st: SessionState, now: int, local: LocalTime, reading: string, reportedAt: int)
    requires !st.terminated
    ensures var r := Schedule(st, now, local, reading, reportedAt);
      (r.trace != st.trace <==> st.reporting && now - st.lastReport >= st.period) &&
      (ReportDue(st, now) ==> r.trace == st.trace + Emitted(st.logging, ReportLine(local, reading))
                              && r.lastReport == reportedAt) &&
      (!ReportDue(st, now) ==> r.lastReport == st.lastReport) &&
      r.clock == local && r.scale == st.scale && r.reporting == st.reporting &&
      r.period == st.period && !r.terminated && r.pending == st.pending
  {
    if ReportDue(st, now) {
      var e := Emitted(st.logging, ReportLine(local, reading));
      assert |st.trace + e| > |st.trace|;
    }
  }

  /** Once the session has ended the scheduler does nothing. */
  lemma ScheduleDone(st: SessionState, now: int, local: LocalTime, reading: string, reportedAt: int)
    requires st.terminated
    ensures Schedule(st, now, local, reading, reportedAt) == st
  {
  }

  /** After STOP no pass of the scheduler reports, and last_report stays where it was. */
  lemma StopSilences(st: SessionState, now: int, local: LocalTime, reading: string, reportedAt: int)
    requires !st.terminated
    ensures var s := Interpret(st, "STOP");
      var r := Schedule(s, now, local, reading, reportedAt);
      r.trace == s.trace && r.lastReport == st.lastReport
  {
    InterpretExact(st);
  }

  // ---------------------------------------------------------------------------
  // Reads

  /** How the input is cut into reads does not matter: two reads have the same
      effect as one read of both chunks together (the first chunk without a NUL). */
  lemma ConsumeChunking(st: SessionState, a: string, b: string)
    requires '\0' !in a
    ensures Consume(Consume(st, a), b) == Consume(st, a + b)
  {
    if !st.terminated {
      var p := st.pending;
      CStringAppend(a, b);
      assert p + CString(a + b) == (p + a) + CString(b);
      assert CString(a) == a by { CStringAll(a); }
      var la := Lex(p + a);
      var lb := Lex(la.rest + CString(b));
      LexAppend(p + a, CString(b));
      var st0 := st.(pending := []);
      var r1 := RunLines(st0, la.cmds);
      RunLinesAppend(st0, la.cmds, lb.cmds);
      RunLinesPending(st0, la.cmds);
      if r1.terminated {
        RunLinesTerminated(r1, lb.cmds);
      } else {
        assert r1.(pending := la.rest).(pending := []) == r1;
      }
    }
  }

  /** The lexer loop's account of a text: once the commands `done`, a prefix of what
      the lexer finds, have been interpreted and either the session is over or there
      is no other command, the text has had its whole effect. */
  lemma DispatchAfter(st: SessionState, text: string, done: seq<string>)
    requires var lx := Lex(text);
      done <= lx.cmds && (RunLines(st, done).terminated || done == lx.cmds)
    ensures var r := RunLines(st, done);
      Dispatch(st, text) == if r.terminated then r else r.(pending := Lex(text).rest)
  {
    var lx := Lex(text);
    var r := RunLines(st, done);
    assert lx.cmds == done + lx.cmds[|done|..];
    RunLinesAppend(st, done, lx.cmds[|done|..]);
    if r.terminated {
      RunLinesTerminated(r, lx.cmds[|done|..]);
    } else {
      assert lx.cmds[|done|..] == [];
    }
  }

  /** A read that completes a run of commands interprets exactly those commands, in
      order, and keeps nothing. */
  lemma ConsumeLines(st: SessionState, data: string, cmds: seq<string>)
    requires !st.terminated && '\0' !in data
    requires forall i :: 0 <= i < |cmds| ==> Trimmed(cmds[i])
    requires st.pending + data == Unlex(cmds)
    ensures Consume(st, data) == RunLines(st.(pending := []), cmds)
  {
    CStringAll(data);
    LexUnlex(cmds);
    RunLinesPending(st.(pending := []), cmds);
  }

  /** A read without a newline interprets nothing: its text, blanks skipped, is kept. */
  lemma ConsumeUnterminated(st: SessionState, data: string)
    requires !st.terminated && st.pending == []
    requires data != [] && '\0' !in data && '\n' !in data
    ensures Consume(st, data) == st.(pending := SkipBlanks(data))
  {
    CStringAll(data);
    assert st.pending + data == data;
    LexUnterminated(data);
  }

  lemma InterpretPeriodThree(st: SessionState)
    requires !st.terminated
    ensures Interpret(st, "PERIOD=3").period == 3
  {
    assert "PERIOD=3" == [] + PeriodKey + "3";
    InterpretPeriod(st, [], "3");
    assert IntToDecimal(3) + [] == "3";
    AtoiOfDecimal(3, []);
  }

  lemma CompleteCommand(st: SessionState)
    requires !st.terminated && st.pending == []
    ensures Consume(st.(pending := "PERIOD=3"), "\n") == Interpret(st, "PERIOD=3")
  {
    var a := "PERIOD=3";
    var s1 := st.(pending := a);
    assert Trimmed(a);
    assert s1.pending + "\n" == Unlex([a]);
    ConsumeLines(s1, "\n", [a]);
    assert s1.(pending := []) == st;
    assert [a][1..] == [];
    assert RunLines(st, [a]) == RunLines(Interpret(st, a), []);
  }

  /** A command split across two reads is interpreted once its newline arrives:
      "PERIOD=3" alone changes nothing and is kept; the following "\n" sets the period. */
  lemma SplitCommand(st: SessionState)
    requires !st.terminated && st.pending == []
    ensures Consume(st, "PERIOD=3") == st.(pending := "PERIOD=3")
    ensures Consume(Consume(st, "PERIOD=3"), "\n").period == 3
  {
    assert SkipBlanks("PERIOD=3") == "PERIOD=3";
    ConsumeUnterminated(st, "PERIOD=3");
    CompleteCommand(st);
    InterpretPeriodThree(st);
  }
}

=== FILE: startup.dfy ===
/** The command line of the TLS program: the options getopt_long hands back, the
    checks made on each, the port taken from the first positional argument, and
    the options that must all be present. */
module Startup {
  import opened Text
  import opened Commands

  /** What getopt_long returns, in order: one of the five long options with its
      argument, or '?' for an unknown option or a missing argument. */
  datatype Opt =
    | PeriodOpt(arg: string)   // --period
    | ScaleOpt(arg: string)    // --scale
    | LogOpt(arg: string)      // --log
    | HostOpt(arg: string)     // --host
    | IdOpt(arg: string)       // --id
    | UnknownOpt

  /** Why the program exits with status 1 before connecting. */
  datatype Failure =
    | BadScale          // --scale other than F or C
    | BadHost           // --host with an empty name
    | BadId             // --id whose length is not 9
    | Usage             // an option getopt_long does not know
    | BadPort           // the port is outside 0..65535
    | MissingPort       // no positional argument
    | MissingRequired   // --log, --host or --id was not given

  datatype Checked<T> = Ok(value: T) | Err(failure: Failure)

  /** The option globals while the options are read: opt_period, opt_scale, and the
      log file name, host and ID, each absent until its option is seen. */
  datatype Settings = Settings(period: int, scale: Scale, log: Option<string>, host: Option<string>, id: Option<string>)

  /** What main() goes on with once every check has passed. */
  datatype Config = Config(period: int, scale: Scale, log: string, host: string, id: string, port: int)

  datatype Outcome = Accepted(config: Config) | Rejected(failure: Failure)

  const MaxPort: int := 65535
  /** char temp[16], which receives the ID line. */
  const IdBufferSize: nat := 16

  /** The globals' initial values: a period of 1 and the Fahrenheit scale. */
  const Defaults: Settings := Settings(1, Fahrenheit, None, None, None)

  /** The check the switch makes on one option, if any fails. */
  function OptionError(o: Opt): (r: Option<Failure>)
    ensures r.Some? ==> r.value == FailureOf(o)
  {
    match o
    case PeriodOpt(_) => None
    case ScaleOpt(a) => if a == "F" || a == "C" then None else Some(BadScale)
    case LogOpt(_) => None
    case HostOpt(a) => if |a| == 0 then Some(BadHost) else None
    case IdOpt(a) => if |a| != 9 then Some(BadId) else None
    case UnknownOpt => Some(Usage)
  }

  /** The assignment the switch makes for an option that passed its check. */
  function Record(s: Settings, o: Opt): (t: Settings)
    ensures t.log.Some? <==> s.log.Some? || o.LogOpt?
    ensures t.host.Some? <==> s.host.Some? || o.HostOpt?
    ensures t.id.Some? <==> s.id.Some? || o.IdOpt?
    ensures OptionError(o).None? && o.ScaleOpt? ==> (t.scale == Celsius <==> o.arg == "C")
  {
    match o
    case PeriodOpt(a) => s.(period := Atoi(a))
    case ScaleOpt(a) => s.(scale := if a == "F" then Fahrenheit else Celsius)
    case LogOpt(a) => s.(log := Some(a))
    case HostOpt(a) => s.(host := Some(a))
    case IdOpt(a) => s.(id := Some(a))
    case UnknownOpt => s
  }

  /** The getopt_long loop: options are taken in order, and the first that fails its
      check ends the program. */
  function ScanOptions(s: Settings, opts: seq<Opt>): (r: Checked<Settings>)
    ensures r.Err? ==> exists i :: 0 <= i < |opts| && OptionError(opts[i]) == Some(r.failure)
    decreases |opts|
  {
    if opts == [] then Ok(s)
    else match OptionError(opts[0])
      case Some(e) => Err(e)
      case None => ScanOptions(Record(s, opts[0]), opts[1..])
  }

  /** atoi(argv[optind]) when there is a positional argument, checked against the
      port range. */
  function PortOf(positional: seq<string>): (r: Checked<int>)
    ensures r.Ok? <==> |positional| > 0 && 0 <= Atoi(positional[0]) <= MaxPort
    ensures r.Ok? ==> r.value == Atoi(positional[0])
    ensures |positional| == 0 ==> r == Err(MissingPort)
  {
    if |positional| == 0 then Err(MissingPort)
    else
      var p := Atoi(positional[0]);
      if p < 0 || p > MaxPort then Err(BadPort) else Ok(p)
  }

  /** The whole command line: the options, then the port, then the required options. */
  function Configure(opts: seq<Opt>, positional: seq<string>): (r: Outcome)
    ensures r.Accepted? ==> |positional| > 0 && r.config.port == Atoi(positional[0])
    ensures r.Accepted? ==> 0 <= r.config.port <= MaxPort
  {
    match ScanOptions(Defaults, opts)
    case Err(e) => Rejected(e)
    case Ok(s) =>
      match PortOf(positional)
      case Err(e) => Rejected(e)
      case Ok(p) =>
        if s.log.None? || s.host.None? || s.id.None? then Rejected(MissingRequired)
        else Accepted(Config(s.period, s.scale, s.log.value, s.host.value, s.id.value, p))
  }

  /** The line sprintf writes into temp and SSL_write sends before the main loop. */
  function IdLine(id: string): (line: string)
    ensures |line| == |id| + 4 && line[|line| - 1] == '\n'
  {
    "ID=" + id + "\n"
  }

  /** The argument handling at the top of main(): the getopt_long loop assigning the
      option globals, then the port and the required options. */
  method ParseArguments(opts: seq<Opt>, positional: seq<string>) returns (r: Outcome)
    ensures r == Configure(opts, positional)
  {
    var period, scale := 1, Fahrenheit;
    var log: Option<string>, host: Option<string>, id: Option<string> := None, None, None;
    var i := 0;
    while i < |opts|
      invariant 0 <= i <= |opts|
      invariant ScanOptions(Defaults, opts) == ScanOptions(Settings(period, scale, log, host, id), opts[i..])
      decreases |opts| - i
    {
      ghost var s := Settings(period, scale, log, host, id);
      assert opts[i..][0] == opts[i] && opts[i..][1..] == opts[i + 1..];
      match opts[i] {
        case PeriodOpt(a) =>
          period := Atoi(a);
        case ScaleOpt(a) =>
          if a == "F" {
            scale := Fahrenheit;
          } else if a == "C" {
            scale := Celsius;
          } else {
            return Rejected(BadScale);
          }
        case LogOpt(a) =>
          log := Some(a);
        case HostOpt(a) =>
          host := Some(a);
          if |a| == 0 {
            return Rejected(BadHost);
          }
        case IdOpt(a) =>
          id := Some(a);
          if |a| != 9 {
            return Rejected(BadId);
          }
        case UnknownOpt =>
          return Rejected(Usage);
      }
      assert Settings(period, scale, log, host, id) == Record(s, opts[i]);
      i := i + 1;
    }
    assert opts[i..] == [];
    var port := -1;
    if 0 < |positional| {
      port := Atoi(positional[0]);
      if port < 0 || port > MaxPort {
        return Rejected(BadPort);
      }
    } else {
      return Rejected(MissingPort);
    }
    if log.None? || host.None? || id.None? {
      return Rejected(MissingRequired);
    }
    return Accepted(Config(period, scale, log.value, host.value, id.value, port));
  }

  // ---------------------------------------------------------------------------
  // What the checks accept

  /** An option that passes the switch's check: --scale F or C, a non-empty --host,
      a nine character --id, and any --period or --log. */
  predicate Acceptable(o: Opt) {
    OptionError(o).None?
  }

  /** The option scan succeeds exactly when every option is acceptable, and then the
      log file, host and ID are set exactly when their options were given. */
  lemma {:induction false} ScanAccepts(s: Settings, opts: seq<Opt>)
    ensures ScanOptions(s, opts).Ok? <==> forall i :: 0 <= i < |opts| ==> Acceptable(opts[i])
    ensures ScanOptions(s, opts).Ok? ==>
      var t := ScanOptions(s, opts).value;
      (t.log.Some? <==> s.log.Some? || (exists i :: 0 <= i < |opts| && opts[i].LogOpt?)) &&
      (t.host.Some? <==> s.host.Some? || (exists i :: 0 <= i < |opts| && opts[i].HostOpt?)) &&
      (t.id.Some? <==> s.id.Some? || (exists i :: 0 <= i < |opts| && opts[i].IdOpt?))
    decreases |opts|
  {
    if opts != [] {
      var o, more := opts[0], opts[1..];
      assert forall i :: 0 < i < |opts| ==> opts[i] == more[i - 1];
      assert forall i :: 0 <= i < |more| ==> more[i] == opts[i + 1];
      if OptionError(o).None? {
        ScanAccepts(Record(s, o), more);
      }
    }
  }

  /** The program starts exactly when every option is acceptable, a port in 0..65535
      is given, and --log, --host and --id were all given. */
  lemma ConfigureAccepts(opts: seq<Opt>, positional: seq<string>)
    ensures Configure(opts, positional).Accepted? <==>
      (forall i :: 0 <= i < |opts| ==> Acceptable(opts[i])) &&
      |positional| > 0 && 0 <= Atoi(positional[0]) <= MaxPort &&
      (exists i :: 0 <= i < |opts| && opts[i].LogOpt?) &&
      (exists i :: 0 <= i < |opts| && opts[i].HostOpt?) &&
      (exists i :: 0 <= i < |opts| && opts[i].IdOpt?)
  {
    ScanAccepts(Defaults, opts);
  }

  /** A started program has a non-empty host, a port in range and a nine character
      ID, whose ID line is thirteen characters and fits temp with its terminator. */
  lemma AcceptedConfig(opts: seq<Opt>, positional: seq<string>)
    requires Configure(opts, positional).Accepted?
    ensures var c := Configure(opts, positional).config;
      c.host != [] && 0 <= c.port <= MaxPort && |c.id| == 9 &&
      c.port == Atoi(positional[0]) &&
      |IdLine(c.id)| == 13 && |IdLine(c.id)| + 1 <= IdBufferSize
  {
    ScanAccepts(Defaults, opts);
    ScanFields(Defaults, opts);
  }

  /** Every host and ID the scan records passed its check. */
  lemma {:induction false} ScanFields(s: Settings, opts: seq<Opt>)
    requires s.host.Some? ==> s.host.value != []
    requires s.id.Some? ==> |s.id.value| == 9
    requires ScanOptions(s, opts).Ok?
    ensures var t := ScanOptions(s, opts).value;
      (t.host.Some? ==> t.host.value != []) && (t.id.Some? ==> |t.id.value| == 9)
    decreases |opts|
  {
    if opts != [] {
      ScanFields(Record(s, opts[0]), opts[1..]);
    }
  }

  /** The ID line begins with "ID=", carries the ID, and ends with a newline. */
  lemma IdLineFormat(id: string)
    ensures IdLine(id)[..3] == "ID=" && IdLine(id)[3..|IdLine(id)| - 1] == id
    ensures |IdLine(id)| == |id| + 4 && IdLine(id)[|IdLine(id)| - 1] == '\n'
  {
  }

  // ---------------------------------------------------------------------------
  // Which check decides

  /** The failure reported for an option that is not acceptable. */
  function FailureOf(o: Opt): (f: Failure) {
    match o
    case ScaleOpt(_) => BadScale
    case HostOpt(_) => BadHost
    case IdOpt(_) => BadId
    case _ => Usage
  }

  /** The first unacceptable option decides the failure, whatever follows it and
      whatever the port and the required options are. */
  lemma {:induction false} ScanFirstFailure(s: Settings, pre: seq<Opt>, o: Opt, post: seq<Opt>)
    requires forall i :: 0 <= i < |pre| ==> Acceptable(pre[i])
    requires !Acceptable(o)
    ensures ScanOptions(s, pre + [o] + post) == Err(FailureOf(o))
    decreases |pre|
  {
    var all := pre + [o] + post;
    if pre == [] {
      assert all[0] == o;
    } else {
      assert all[0] == pre[0] && all[1..] == pre[1..] + [o] + post;
      assert Acceptable(pre[0]);
      ScanFirstFailure(Record(s, pre[0]), pre[1..], o, post);
    }
  }

  lemma ConfigureFirstFailure(pre: seq<Opt>, o: Opt, post: seq<Opt>, positional: seq<string>)
    requires forall i :: 0 <= i < |pre| ==> Acceptable(pre[i])
    requires !Acceptable(o)
    ensures Configure(pre + [o] + post, positional) == Rejected(FailureOf(o))
  {
    ScanFirstFailure(Defaults, pre, o, post);
  }

  /** With acceptable options, a missing or out-of-range port is reported before any
      missing required option. */
  lemma ConfigurePortFirst(opts: seq<Opt>, positional: seq<string>)
    requires forall i :: 0 <= i < |opts| ==> Acceptable(opts[i])
    ensures |positional| == 0 ==> Configure(opts, positional) == Rejected(MissingPort)
    ensures |positional| > 0 && !(0 <= Atoi(positional[0]) <= MaxPort) ==>
      Configure(opts, positional) == Rejected(BadPort)
  {
    ScanAccepts(Defaults, opts);
  }

  // ---------------------------------------------------------------------------
  // The last occurrence of an option wins

  /** Options of other kinds leave the scale and the period as they were. */
  lemma {:induction false} ScanKeeps(s: Settings, opts: seq<Opt>)
    requires ScanOptions(s, opts).Ok?
    ensures (forall i :: 0 <= i < |opts| ==> !opts[i].ScaleOpt?) ==> ScanOptions(s, opts).value.scale == s.scale
    ensures (forall i :: 0 <= i < |opts| ==> !opts[i].PeriodOpt?) ==> ScanOptions(s, opts).value.period == s.period
    decreases |opts|
  {
    if opts != [] {
      var more := opts[1..];
      assert forall i :: 0 <= i < |more| ==> more[i] == opts[i + 1];
      ScanKeeps(Record(s, opts[0]), more);
    }
  }

  lemma {:induction false} ScanAppend(s: Settings, a: seq<Opt>, b: seq<Opt>)
    ensures ScanOptions(s, a + b) ==
      match ScanOptions(s, a)
      case Err(e) => Err(e)
      case Ok(t) => ScanOptions(t, b)
    decreases |a|
  {
    if a == [] {
      assert a + b == b;
    } else {
      assert (a + b)[0] == a[0] && (a + b)[1..] == a[1..] + b;
      if OptionError(a[0]).None? {
        ScanAppend(Record(s, a[0]), a[1..], b);
      }
    }
  }

  /** The last --scale decides the scale, and the last --period the period. */
  lemma ConfigureLastScale(pre: seq<Opt>, a: string, post: seq<Opt>, positional: seq<string>)
    requires forall i :: 0 <= i < |post| ==> !post[i].ScaleOpt?
    requires Configure(pre + [ScaleOpt(a)] + post, positional).Accepted?
    ensures Configure(pre + [ScaleOpt(a)] + post, positional).config.scale ==
      if a == "F" then Fahrenheit else Celsius
  {
    ScanAppend(Defaults, pre + [ScaleOpt(a)], post);
    ScanAppend(Defaults, pre, [ScaleOpt(a)]);
    var t := ScanOptions(Defaults, pre + [ScaleOpt(a)]).value;
    assert [ScaleOpt(a)][1..] == [];
    ScanKeeps(t, post);
  }

  lemma ConfigureLastPeriod(pre: seq<Opt>, a: string, post: seq<Opt>, positional: seq<string>)
    requires forall i :: 0 <= i < |post| ==> !post[i].PeriodOpt?
    requires Configure(pre + [PeriodOpt(a)] + post, positional).Accepted?
    ensures Configure(pre + [PeriodOpt(a)] + post, positional).config.period == Atoi(a)
  {
    ScanAppend(Defaults, pre + [PeriodOpt(a)], post);
    ScanAppend(Defaults, pre, [PeriodOpt(a)]);
    var t := ScanOptions(Defaults, pre + [PeriodOpt(a)]).value;
    assert [PeriodOpt(a)][1..] == [];
    ScanKeeps(t, post);
  }

  /** Without --scale or --period the defaults stand: Fahrenheit, and a period of 1. */
  lemma ConfigureDefaults(opts: seq<Opt>, positional: seq<string>)
    requires Configure(opts, positional).Accepted?
    ensures (forall i :: 0 <= i < |opts| ==> !opts[i].ScaleOpt?) ==>
      Configure(opts, positional).config.scale == Fahrenheit
    ensures (forall i :: 0 <= i < |opts| ==> !opts[i].PeriodOpt?) ==>
      Configure(opts, positional).config.period == 1
  {
    ScanKeeps(Defaults, opts);
  }
}

=== FILE: text.dfy ===
/** The C-library string operations the agent relies on: the C-string view of a
    NUL-terminated buffer, strstr, atoi, and the %d / %02d conversions of sprintf. */
module Text {

  datatype Option<T> = None | Some(value: T)

  /** isspace() in the C locale: the characters atoi skips before a number. */
  predicate IsSpace(c: char) {
    c == ' ' || c == '\t' || c == '\n' || c == '\U{B}' || c == '\U{C}' || c == '\r'
  }

  predicate IsDigit(c: char) {
    '0' <= c <= '9'
  }

  predicate AllDigits(s: string) {
    forall i :: 0 <= i < |s| ==> IsDigit(s[i])
  }

  function DigitValue(c: char): (d: nat)
    requires IsDigit(c)
    ensures d < 10
  {
    c as int - '0' as int
  }

  function DigitChar(d: nat): (c: char)
    requires d < 10
    ensures IsDigit(c) && DigitValue(c) == d
  {
    ('0' as int + d) as char
  }

  // ---------------------------------------------------------------------------
  // C strings

  /** The C string held by a buffer: everything before its first NUL. */
  function CString(s: string): (r: string)
    ensures r <= s
    ensures '\0' !in r
    ensures |r| < |s| ==> s[|r|] == '\0'
  {
    if s == [] || s[0] == '\0' then [] else [s[0]] + CString(s[1..])
  }

  /** Writing a terminator after the data makes the C string that of the data,
      whatever the buffer holds beyond the terminator. */
  lemma {:induction false} CStringOfTerminated(data: string, junk: string)
    ensures CString(data + ['\0'] + junk) == CString(data)
  {
    if data != [] && data[0] != '\0' {
      assert (data + ['\0'] + junk)[1..] == data[1..] + ['\0'] + junk;
      CStringOfTerminated(data[1..], junk);
    } else if data != [] {
      assert (data + ['\0'] + junk)[0] == '\0';
    }
  }

  /** A buffer without a NUL is its own C string. */
  lemma {:induction false} CStringAll(s: string)
    requires '\0' !in s
    ensures CString(s) == s
  {
    if s != [] {
      CStringAll(s[1..]);
    }
  }

  /** Data without a NUL passes through unchanged to the C string of what follows. */
  lemma {:induction false} CStringAppend(a: string, b: string)
    requires '\0' !in a
    ensures CString(a + b) == a + CString(b)
  {
    if a != [] {
      assert (a + b)[0] == a[0];
      assert (a + b)[1..] == a[1..] + b;
      CStringAppend(a[1..], b);
    } else {
      assert a + b == b;
    }
  }

  // ---------------------------------------------------------------------------
  // strstr

  predicate OccursAt(s: string, pat: string, i: nat) {
    i + |pat| <= |s| && s[i..i + |pat|] == pat
  }

  function FindFrom(s: string, pat: string, from: nat): (r: Option<nat>)
    requires from <= |s|
    ensures r.Some? ==> from <= r.value && r.value + |pat| <= |s|
    decreases |s| - from
  {
    if from + |pat| > |s| then None
    else if s[from..from + |pat|] == pat then Some(from)
    else if from == |s| then None
    else FindFrom(s, pat, from + 1)
  }

  /** strstr(s, pat): the position of the first occurrence of pat in s, or none. */
  function Find(s: string, pat: string): (r: Option<nat>)
    ensures r.Some? ==> OccursAt(s, pat, r.value)
  {
    FindFromSpec(s, pat, 0);
    FindFrom(s, pat, 0)
  }

  lemma {:induction false} FindFromSpec(s: string, pat: string, from: nat)
    requires from <= |s|
    ensures FindFrom(s, pat, from).Some? ==>
      var i := FindFrom(s, pat, from).value;
      from <= i && OccursAt(s, pat, i) && forall j :: from <= j < i ==> !OccursAt(s, pat, j)
    ensures FindFrom(s, pat, from).None? ==> forall j :: from <= j ==> !OccursAt(s, pat, j)
    decreases |s| - from
  {
    if from + |pat| <= |s| && s[from..from + |pat|] != pat && from < |s| {
      FindFromSpec(s, pat, from + 1);
    }
  }

  /** strstr finds the first occurrence of the pattern, and reports none only when
      the pattern occurs nowhere. */
  lemma FindSpec(s: string, pat: string)
    ensures Find(s, pat).Some? ==>
      var i := Find(s, pat).value;
      OccursAt(s, pat, i) && forall j :: 0 <= j < i ==> !OccursAt(s, pat, j)
    ensures Find(s, pat).None? <==> forall j :: 0 <= j ==> !OccursAt(s, pat, j)
  {
    FindFromSpec(s, pat, 0);
  }

  // ---------------------------------------------------------------------------
  // atoi

  /** s without its leading white space. */
  function SkipSpaces(s: string): (r: string)
    ensures |r| <= |s|
    ensures r == [] || !IsSpace(r[0])
  {
    if s != [] && IsSpace(s[0]) then SkipSpaces(s[1..]) else s
  }

  lemma {:induction false} SkipSpacesSuffix(s: string)
    ensures SkipSpaces(s) == s[|s| - |SkipSpaces(s)|..]
  {
    if s != [] && IsSpace(s[0]) {
      SkipSpacesSuffix(s[1..]);
    }
  }

  /** The longest prefix of s made of decimal digits. */
  function LeadingDigits(s: string): (r: string)
    ensures r <= s && AllDigits(r)
    ensures |r| < |s| ==> !IsDigit(s[|r|])
  {
    if s != [] && IsDigit(s[0]) then [s[0]] + LeadingDigits(s[1..]) else []
  }

  /** The value of a string of decimal digits, most significant first. */
  function DigitsValue(ds: string): (n: nat)
    requires AllDigits(ds)
  {
    if ds == [] then 0 else DigitsValue(ds[..|ds| - 1]) * 10 + DigitValue(ds[|ds| - 1])
  }

  /** atoi: optional leading white space, an optional sign, then as many decimal
      digits as follow; 0 when there are none. */
  function Atoi(s: string): (r: int)
    ensures r < 0 ==> '-' in s
    ensures AllDigits(s) ==> r == DigitsValue(s)
  {
    var t := SkipSpaces(s);
    SkipSpacesSuffix(s);
    assert t != [] ==> t[0] == s[|s| - |t|];
    assert AllDigits(s) ==> LeadingDigits(s) == s by {
      if AllDigits(s) {
        LeadingDigitsOfDigits(s, []);
        assert s + [] == s;
      }
    }
    if t != [] && t[0] == '-' then 0 - DigitsValue(LeadingDigits(t[1..]))
    else if t != [] && t[0] == '+' then DigitsValue(LeadingDigits(t[1..]))
    else DigitsValue(LeadingDigits(t))
  }

  // ---------------------------------------------------------------------------
  // %d and %02d

  /** The decimal digits of n, as sprintf's %d writes a non-negative number. */
  function NatToDecimal(n: nat): (r: string)
    ensures r != [] && AllDigits(r)
  {
    if n < 10 then [DigitChar(n)] else NatToDecimal(n / 10) + [DigitChar(n % 10)]
  }

  /** sprintf's %d. */
  function IntToDecimal(n: int): (r: string) {
    if n < 0 then "-" + NatToDecimal(-n) else NatToDecimal(n)
  }

  /** sprintf's %02d for a non-negative number: at least two digits, zero-padded. */
  function Pad2(n: nat): (r: string)
    ensures n < 100 ==> |r| == 2
  {
    if n < 10 then "0" + NatToDecimal(n)
    else
      assert n < 100 ==> |NatToDecimal(n / 10)| == 1;
      NatToDecimal(n)
  }

  lemma {:induction false} DigitsValueOfDecimal(n: nat)
    ensures DigitsValue(NatToDecimal(n)) == n
  {
    if n >= 10 {
      var r := NatToDecimal(n);
      assert r[..|r| - 1] == NatToDecimal(n / 10);
      DigitsValueOfDecimal(n / 10);
    }
  }

  lemma {:induction false} LeadingDigitsOfDigits(ds: string, rest: string)
    requires AllDigits(ds)
    requires rest == [] || !IsDigit(rest[0])
    ensures LeadingDigits(ds + rest) == ds
  {
    if ds != [] {
      assert (ds + rest)[1..] == ds[1..] + rest;
      LeadingDigitsOfDigits(ds[1..], rest);
    }
  }

  lemma AtoiUnsigned(s: string)
    requires s != [] && IsDigit(s[0])
    ensures Atoi(s) == DigitsValue(LeadingDigits(s))
  {
    assert !IsSpace(s[0]) && s[0] != '-' && s[0] != '+';
    assert SkipSpaces(s) == s;
  }

  lemma AtoiNegative(s: string)
    requires s != [] && s[0] == '-'
    ensures Atoi(s) == 0 - DigitsValue(LeadingDigits(s[1..]))
  {
    assert SkipSpaces(s) == s;
  }

  lemma AtoiPositive(s: string)
    requires s != [] && s[0] == '+'
    ensures Atoi(s) == DigitsValue(LeadingDigits(s[1..]))
  {
    assert SkipSpaces(s) == s;
  }

  /** atoi is 0 when no digit follows the white space and the optional sign, even
      when digits come later ("x5", "- 5", "+-5"). */
  lemma AtoiNoNumber(ws: string, sign: string, rest: string)
    requires forall i :: 0 <= i < |ws| ==> IsSpace(ws[i])
    requires sign == "" || sign == "+" || sign == "-"
    requires rest == [] || !IsDigit(rest[0])
    requires sign == "" && rest != [] ==> !IsSpace(rest[0]) && rest[0] != '+' && rest[0] != '-'
    ensures Atoi(ws + sign + rest) == 0
  {
    var s := sign + rest;
    assert ws + sign + rest == ws + s;
    AtoiSkipsSpace(ws, s);
    if s != [] {
      assert SkipSpaces(s) == s by { assert !IsSpace(s[0]); }
      if sign != "" {
        assert s[1..] == rest;
      }
    }
  }

  /** atoi reads back what %d wrote, and stops at the first character that is not a digit. */
  lemma AtoiOfDecimal(n: int, rest: string)
    requires rest == [] || !IsDigit(rest[0])
    ensures Atoi(IntToDecimal(n) + rest) == n
  {
    if n < 0 {
      AtoiOfNegative(-n, rest);
      assert IntToDecimal(n) + rest == "-" + NatToDecimal(-n) + rest;
    } else {
      AtoiOfNatural(n, rest);
    }
  }

  lemma AtoiOfNatural(n: nat, rest: string)
    requires rest == [] || !IsDigit(rest[0])
    ensures Atoi(NatToDecimal(n) + rest) == n
  {
    var ds := NatToDecimal(n);
    DigitsValueOfDecimal(n);
    LeadingDigitsOfDigits(ds, rest);
    assert (ds + rest)[0] == ds[0];
    AtoiUnsigned(ds + rest);
  }

  lemma AtoiOfNegative(m: nat, rest: string)
    requires rest == [] || !IsDigit(rest[0])
    ensures Atoi("-" + NatToDecimal(m) + rest) == -(m as int)
  {
    var ds := NatToDecimal(m);
    DigitsValueOfDecimal(m);
    LeadingDigitsOfDigits(ds, rest);
    var s := "-" + ds + rest;
    assert s[1..] == ds + rest;
    AtoiNegative(s);
  }

  /** atoi of a string without a single digit is 0: a malformed number is not rejected. */
  lemma AtoiNoDigits(s: string)
    requires forall i :: 0 <= i < |s| ==> !IsDigit(s[i])
    ensures Atoi(s) == 0
  {
    var t := SkipSpaces(s);
    SkipSpacesSuffix(s);
    assert forall i :: 0 <= i < |t| ==> t[i] == s[|s| - |t| + i];
    if t != [] && (t[0] == '-' || t[0] == '+') {
      assert LeadingDigits(t[1..]) == [] by {
        if t[1..] != [] { assert t[1..][0] == s[|s| - |t| + 1]; }
      }
    } else {
      assert LeadingDigits(t) == [] by {
        if t != [] { assert t[0] == s[|s| - |t|]; }
      }
    }
  }

  lemma {:induction false} SkipSpacesPrefix(ws: string, s: string)
    requires forall i :: 0 <= i < |ws| ==> IsSpace(ws[i])
    ensures SkipSpaces(ws + s) == SkipSpaces(s)
  {
    if ws != [] {
      assert (ws + s)[0] == ws[0] && IsSpace(ws[0]);
      assert SkipSpaces(ws + s) == SkipSpaces((ws + s)[1..]);
      assert (ws + s)[1..] == ws[1..] + s;
      SkipSpacesPrefix(ws[1..], s);
    } else {
      assert ws + s == s;
    }
  }

  /** atoi ignores leading white space. */
  lemma AtoiSkipsSpace(ws: string, s: string)
    requires forall i :: 0 <= i < |ws| ==> IsSpace(ws[i])
    ensures Atoi(ws + s) == Atoi(s)
  {
    SkipSpacesPrefix(ws, s);
  }

  /** atoi's whole promise: white space, an optional sign, a run of digits (leading
      zeros allowed) and then anything that does not start with a digit give the
      value of the digits, negated after a minus sign. */
  lemma AtoiSpec(ws: string, sign: string, ds: string, rest: string)
    requires forall i :: 0 <= i < |ws| ==> IsSpace(ws[i])
    requires sign == "" || sign == "+" || sign == "-"
    requires ds != [] && AllDigits(ds)
    requires rest == [] || !IsDigit(rest[0])
    ensures Atoi(ws + sign + ds + rest) == if sign == "-" then 0 - DigitsValue(ds) else DigitsValue(ds) as int
  {
    var s := sign + ds + rest;
    assert ws + sign + ds + rest == ws + s;
    AtoiSkipsSpace(ws, s);
    AtoiSigned(sign, ds, rest);
  }

  lemma AtoiSigned(sign: string, ds: string, rest: string)
    requires sign == "" || sign == "+" || sign == "-"
    requires ds != [] && AllDigits(ds)
    requires rest == [] || !IsDigit(rest[0])
    ensures Atoi(sign + ds + rest) == if sign == "-" then 0 - DigitsValue(ds) else DigitsValue(ds) as int
  {
    if sign == "" {
      assert sign + ds + rest == ds + rest;
      AtoiOfDigits(ds, rest);
    } else if sign == "-" {
      AtoiMinus(ds, rest);
    } else {
      AtoiPlus(ds, rest);
    }
  }

  lemma AtoiOfDigits(ds: string, rest: string)
    requires ds != [] && AllDigits(ds)
    requires rest == [] || !IsDigit(rest[0])
    ensures Atoi(ds + rest) == DigitsValue(ds)
  {
    LeadingDigitsOfDigits(ds, rest);
    assert (ds + rest)[0] == ds[0];
    AtoiUnsigned(ds + rest);
  }

  lemma AtoiMinus(ds: string, rest: string)
    requires AllDigits(ds)
    requires rest == [] || !IsDigit(rest[0])
    ensures Atoi("-" + ds + rest) == 0 - DigitsValue(ds)
  {
    LeadingDigitsOfDigits(ds, rest);
    var s := "-" + ds + rest;
    assert s[1..] == ds + rest;
    AtoiNegative(s);
  }

  lemma AtoiPlus(ds: string, rest: string)
    requires AllDigits(ds)
    requires rest == [] || !IsDigit(rest[0])
    ensures Atoi("+" + ds + rest) == DigitsValue(ds)
  {
    LeadingDigitsOfDigits(ds, rest);
    var s := "+" + ds + rest;
    assert s[1..] == ds + rest;
    AtoiPositive(s);
  }

  /** %02d writes exactly two digits for 0..99, and atoi reads the number back. */
  lemma Pad2RoundTrip(n: nat)
    requires n < 100
    ensures |Pad2(n)| == 2 && AllDigits(Pad2(n))
    ensures Atoi(Pad2(n)) == n
  {
    if n < 10 {
      var p := Pad2(n);
      assert p == ['0', DigitChar(n)];
      assert LeadingDigits(p) == p by { LeadingDigitsOfDigits(p, []); assert p + [] == p; }
      assert p[..1] == ['0'];
      assert DigitsValue(p) == DigitsValue(['0']) * 10 + n;
    } else {
      assert NatToDecimal(n) == NatToDecimal(n / 10) + [DigitChar(n % 10)];
      AtoiOfDecimal(n, []);
      assert IntToDecimal(n) + [] == Pad2(n);
    }
  }
}
